=== FILE: README.md ===
# aight dispatcher, modelled in Dafny

aight is a terminal chat client for the Anthropic Messages API. Its
Dispatcher keeps the conversation thread. It advertises a fixed set of
tools: file system, SQLite and Python. It runs the tool calls the model
asks for and feeds the results back. Every file path a tool is given first
goes through a sandbox check against the working directory.

This project models that core as pure functions over immutable data, and
proves what the code promises. The parts:

- **Sandbox** (`sandbox.dfy`): the path resolver.
- **Decode** (`decode.dfy`): the decode-then-invoke wrapper `callTool`.
- **Dispatch** (`dispatch.dfy`):
  - registration and `callFunction`;
  - the tool-call batch;
  - the thread writers;
  - the retrying completion;
  - `interact` and `Communicate`.
- **Tools** (`tools.dfy`):
  - the nine registered handlers;
  - `guardError`;
  - the tool catalogue and `NewDispatcher`.
- **Bootstrap** (`bootstrap.dfy`):
  - the start-up and loop logic of `main`;
  - `$` token lookup;
  - the scripted prompt closure and `PromptStdin`;
  - the ask-first decision and the endless `Communicate` loop.
- **Supporting modules**:
  - `Wrappers`: Option and Result;
  - `Strings`: the subset of Go's `strings` package in use;
  - `Karma`: karma-go error chains and their two renderings;
  - `Values`: Go `any` and the `(any, error)` pair;
  - `Messages`: the Anthropic message shapes;
  - `FilePath`: `IsAbs`, `Join`, `Dir`;
  - `Permutations`;
  - `Host`: the outside world.

How the model represents the outside world:

- **Effects.** The world is a record of total functions (`Host.World`):
  - directory listing, file read, mkdir, open, write, rename, remove;
  - `tree`, SQLite open/exec/query;
  - writing and running a Python script.

  Each handler returns its outcome together with the trace of effects it
  asked for (`Tools.Run`). "The sandbox is checked before any effect" then
  means the trace is empty on rejection.
- **Concurrency.** `handleToolCalls` runs the calls in goroutines and
  collects the results from a channel. The arrival order is a permutation
  of the calls, supplied by a scheduler for each turn and batch size.
  `Dispatch.Env` counts the turns, so two batches of the same size in
  different turns may arrive in different orders.
- **Endless loops.** These loops are modelled over finite streams:
  - the provider retry in `complete`;
  - `interact` skipping empty input;
  - `PromptStdin`;
  - the main loop.

  Running out of stream stands for the source waiting forever. The main
  loop also takes a turn bound.
- **JSON and schemas.** Decoding a tool payload into each argument type is
  a parameter (`Tools.Codec`). So are JSON marshalling of results and the
  schema reflected for a type.

## Model

| member | source | states |
|---|---|---|
| Sandbox.Resolve | dispatch.go:91-105 | A path is rejected exactly when it is absolute or contains "..", with "/" exempt. A rejection returns the path unchanged and the source's message ("path must be relative: …" or "path must not contain '..': …"). An accepted path is joined onto the working directory, with "/" taken as "." |
| Sandbox.RootIsDot | dispatch.go:92-94 | "/" resolves exactly as "." does: to the working directory joined with "." and no error |
| Sandbox.DotDotInsideNameRejected | dispatch.go:100-102 | The ".." test is a substring test: "a..b" is rejected with the ".." message although it climbs nowhere |
| Sandbox.AcceptedIsWithin | dispatch.go:96-104 | Every accepted path lies inside the working directory. Whatever follows the directory prefix is the requested name itself, which is relative and free of "..". This is the sandbox guarantee |
| Sandbox.RejectsClimbing | dispatch.go:100-102 | "../etc/passwd" under /work is rejected with the ".." message quoting the path |
| Sandbox.JoinsNested | dispatch.go:104 | "a/b.txt" under /work resolves to "/work/a/b.txt" with no error |
| Decode.CallTool | decode.go:12-26 | For every tool use, a payload that fails to decode gives a nil value and the error "decode json of <input>" wrapping the decoder's error. A payload that decodes gives exactly the handler's pair for the decoded value |
| Decode.HandlerNotCalledOnDecodeFailure | decode.go:15-18 | On a decode failure the result is the same whatever the handler is, so the handler is not consulted, and the error is set |
| Decode.DecodeErrorQuotesInput | decode.go:17 | The decode error's text, in both renderings, contains the raw payload |
| Dispatch.Empty | dispatch.go:46-59 | A new dispatcher has an empty thread, no tools and no functions, and the given working directory and model |
| Dispatch.Register | dispatch.go:107-129 | The tool list grows by one definition at the end (name, description, reflected schema), with the earlier ones unchanged. The name is bound to callTool of the handler. Every other binding, the thread, the working directory and the model are unchanged |
| Dispatch.RegisterAll | dispatch.go:127-128 | Registering tools one after another keeps the thread, working directory and model. What it does to the catalogue and the bindings is stated by RegisterAllAdvertises, RegisterAllBinds, RegisterAllKeepsOthers and RegisterAllLastWins |
| Dispatch.RegisterAllAdvertises | dispatch.go:127 | Registering a sequence appends its definitions, in order, after the existing tools |
| Dispatch.RegisterAllBinds | dispatch.go:128 | Registering a sequence binds exactly the existing names plus the names registered |
| Dispatch.RegisterAllKeepsOthers | dispatch.go:128 | A bound name that is not registered again keeps its function |
| Dispatch.RegisterAllLastWins | dispatch.go:128 | A name ends up bound to the function of its last registration |
| Dispatch.DuplicateRegistration | dispatch.go:127-128 | Registering a name twice is not rejected. The name is advertised twice, at two different positions, while the map keeps one key, bound to the newer handler |
| Dispatch.CallFunction | dispatch.go:222-229 | An unknown name gives a nil value and the error "function not found". A known name gives the bound function's result for the call |
| Dispatch.UnknownNameIndependentOfRegistry | dispatch.go:223-226 | The not-found answer does not depend on what else is registered: no handler is involved |
| Dispatch.Entry | dispatch.go:191-211 | Only a successful result whose value does not marshal fails. Otherwise the entry is a tool result for the call's ID, flagged as an error iff the call failed. Its text is the error's text, or else the marshalled value |
| Dispatch.Entries | dispatch.go:190-212 | Building the content fails iff some entry fails. On success there is one entry per result, in order |
| Dispatch.HandleToolCalls | dispatch.go:131-220 | On success exactly one message is appended and nothing else changes. It is a user message with one tool result per call, in arrival order. Each result carries its call's ID and is flagged as an error iff that call returned an error. Its text is the call's error text, or else the marshalled value. The batch fails iff some call succeeded with a value that does not marshal |
| Dispatch.ArrivalKeepsFailures | dispatch.go:138-179 | Whatever order the results arrive in, some entry fails to build iff some call's successful value does not marshal |
| Dispatch.BatchAnswersEveryCall | dispatch.go:161-212 | The IDs in the appended message are a permutation of the calls' IDs: every call answered exactly once |
| Dispatch.UnknownToolScenario | dispatch.go:190-217 | One call to an unregistered tool appends a single user message, with one error-flagged result "function not found" for that call's ID |
| Dispatch.WriteMessage | dispatch.go:231-261 | Exactly one message is appended at the end. Every earlier message and the rest of the dispatcher are unchanged |
| Dispatch.WriteToolCall | dispatch.go:263-278 | Exactly one message is appended at the end. Every earlier message and the rest of the dispatcher are unchanged |
| Dispatch.Complete | dispatch.go:339-361 | The completion never gives up. It returns nothing iff every provider outcome is a failure. Otherwise it returns the first reply, after the failed attempts before it. Every request carries the model, the whole thread, 2000 max tokens and the tool list |
| Dispatch.RetryUntilSuccess | dispatch.go:350-359 | Any number of failures followed by a reply yields that reply, on attempt failures + 1 |
| Dispatch.Interact | dispatch.go:317-337 | Empty inputs are skipped. The first non-empty one is appended as a single user text message. Nothing is appended iff every input is empty |
| Dispatch.Communicate | dispatch.go:284-315 | A turn blocks on the completion iff the provider never replies. A turn that continues appends the assistant's reply, then one user message, and nothing else changes; it consumes the provider outcomes up to the reply and advances the turn count by one. With tool uses it never blocks and consumes no prompt. Only a reply with tool uses can end fatally. Without tool uses, the turn blocks iff every remaining input is empty |
| Dispatch.CommunicateHandles | dispatch.go:298-308 | With tool uses, the turn is exactly handleToolCalls of the reply's uses, in this turn's arrival order, on the thread with the reply appended. It is fatal iff that fails, with the error wrapped in "handle tool calls", and otherwise continues with its dispatcher |
| Dispatch.CommunicatePrompts | dispatch.go:305-314 | A turn without tool uses that continues skips the empty inputs, appends the first non-empty one as the user message after the reply, and consumes the inputs up to and including it, at least one |
| Dispatch.TurnEndsWithUser | dispatch.go:305-314 | After every turn that continues, the thread ends with a user message |
| Messages.ToolUses | dispatch.go:298-303 | The tool uses are exactly the tool-use blocks of the reply. There are none iff the reply has no tool-use block |
| Messages.ToolUsesOfOne | dispatch.go:299-302 | One block contributes its tool use if it is a tool-use block, and nothing otherwise |
| Messages.ToolUsesAppend | dispatch.go:299-302 | The uses of concatenated content are the uses of each part, in order. With ToolUsesOfOne this fixes the order and the multiplicity: one use per tool-use block, in block order |
| Permutations.PermutePreservesMultiset | dispatch.go:161-164 | Reading the results in any permutation order gives the same multiset of results |
| Tools.FileValue | dispatch_tools.go:105-109 | A listing entry always has "name", holding the name. It has "dir" iff the entry is a directory, holding true, and "size" iff the size is non-zero (omitempty), holding the size. It has no other key |
| Tools.Listing | dispatch_tools.go:123-139 | The listing fails iff some non-directory entry's info fails. Otherwise it has one value per entry, in order, with directories given size 0 |
| Tools.ListFiles | dispatch_tools.go:104-142 | A sandbox rejection comes first and with no effect. Otherwise the only effect is reading the resolved directory. The call succeeds iff the read and the listing succeed, with the listing as value |
| Tools.TreeFiles | dispatch_tools.go:247-267 | A sandbox rejection comes first and with no effect. Otherwise the only effect is running tree on the resolved path. The call succeeds iff tree succeeds and its output unmarshals, with the unmarshalled output as value |
| Tools.ReadFile | dispatch_tools.go:148-160 | A sandbox rejection comes first and with no effect. Otherwise it reads the resolved file. The contents come back as a string, or the read error comes back unchanged |
| Tools.OpenFlags | dispatch_tools.go:179-184 | The flags always include O_CREATE and the write-only access mode. They include O_APPEND iff appending and O_TRUNC iff not, and no other bit |
| Tools.WriteFile | dispatch_tools.go:168-199 | A sandbox rejection comes first and with no effect. Otherwise the effects, in order, are mkdir of the parent, open with OpenFlags, and write of the contents. The trace stops at the first failure: it has one effect when mkdir fails, two when open fails, and three otherwise. The call succeeds iff all three succeed, with value true |
| Tools.MoveFile | dispatch_tools.go:206-223 | Both paths are sandboxed before any effect: from, then to. The only effect is the rename. The call succeeds iff the rename does, with value true |
| Tools.RemoveFile | dispatch_tools.go:229-241 | A sandbox rejection comes first and with no effect. The only effect is removing the resolved path. The call succeeds iff the removal does, with value true |
| Tools.ExecReply | dispatch_tools.go:296-308 | The reply always has last_insert_id and rows_affected. It has each "_error" key iff that accessor failed, holding the error text, and no other key |
| Tools.SqlExecute | dispatch_tools.go:278-309 | A sandbox rejection comes first and with no effect. Every effect targets the resolved database: open, then exec. The trace is the open alone when it fails, and both otherwise. The call succeeds iff both succeed, and the reply is ExecReply of the result |
| Tools.RowMap | dispatch_tools.go:360-364 | A row's keys are exactly the column names |
| Tools.RowMapLastWins | dispatch_tools.go:362-364 | A column name holds the value of its last column: the value of column i when no later column has the same name |
| Tools.RowMaps | dispatch_tools.go:347-367 | The rows fail iff some scan fails. Otherwise there is one map per scanned row, in order |
| Tools.SqlQueryRows | dispatch_tools.go:320-370 | A sandbox rejection comes first and with no effect. Every effect targets the resolved database: open, then query. The trace is the open alone when it fails, and both otherwise. The call succeeds iff open, query, columns and every scan succeed, with the list of row maps as value |
| Tools.WithPySuffix | dispatch_tools.go:387-389 | The result always ends in ".py". A path already ending in ".py" is unchanged; otherwise ".py" is appended |
| Tools.WithPySuffixIdempotent | dispatch_tools.go:387-389 | Adding the suffix twice is the same as adding it once |
| Tools.ShapeOutput | dispatch_tools.go:403-410 | The output is "ok" iff stdout and stderr are both empty. Otherwise it is a map with exactly the keys stdout and stderr holding them |
| Tools.RunScript | dispatch_tools.go:391-410 | The script is written to the path first and then run, and no other path is touched. A failed write is the whole trace, with nothing run. The call succeeds iff both steps do, with the shaped output as value |
| Tools.PythonAsWritten | dispatch_tools.go:381-411 | python as written: a sandbox rejection comes first and with no effect. Otherwise the script is written and run at the resolved path, suffixed with ".py" |
| Tools.PythonAsWrittenEscapes | dispatch_tools.go:382-389 | With script name "" under /work, the script is written to "/work.py", which lies outside /work |
| Tools.ScriptPath | dispatch_tools.go:382-389 | The corrected script path always ends in ".py" and lies strictly inside the working directory |
| Tools.Python | dispatch_tools.go:381-411 | Corrected python, not the registered handler: a sandbox rejection comes first and with no effect. Otherwise the script is written and run at ScriptPath |
| Tools.ScriptPathAgrees | dispatch_tools.go:382-389 | For every accepted name other than "", "." and "/", the corrected path is the suffixed resolved path of the source |
| Tools.PythonAgreesInside | dispatch_tools.go:381-411 | For every script name other than "", "." and "/", the corrected handler behaves exactly as PythonAsWritten, effects included |
| Tools.ListFilesStaysInside | dispatch_tools.go:113-118 | Every path fs_list touches lies inside the working directory |
| Tools.TreeFilesStaysInside | dispatch_tools.go:248-255 | Every path fs_tree touches lies inside the working directory |
| Tools.ReadFileStaysInside | dispatch_tools.go:149-154 | Every path fs_read touches lies inside the working directory |
| Tools.WriteFileStaysInside | dispatch_tools.go:169-193 | Every path fs_write opens or writes lies inside the working directory |
| Tools.WriteFileMkdirInside | dispatch_tools.go:169-176 | fs_write's first effect is MkdirAll of the resolved path's parent. That parent lies inside the working directory unless the path is the working directory itself |
| Tools.MoveFileStaysInside | dispatch_tools.go:207-217 | Both paths fs_move touches lie inside the working directory |
| Tools.RemoveFileStaysInside | dispatch_tools.go:230-235 | Every path fs_remove touches lies inside the working directory |
| Tools.SqlExecuteStaysInside | dispatch_tools.go:279-291 | Every database sql_exec touches lies inside the working directory |
| Tools.SqlQueryRowsStaysInside | dispatch_tools.go:321-333 | Every database sql_query touches lies inside the working directory |
| Tools.PythonStaysInside | dispatch_tools.go:382-397 | Every script path the corrected python touches lies inside the working directory |
| Tools.GuardError | dispatch_tools.go:447-456 | The guarded function never returns an error. A success passes through unchanged. A failure becomes a success whose value is the flattened error text |
| Tools.HandlerFailsOnlyToDecode | dispatch_tools.go:27-79 | A registered handler, callTool over guardError, reports an error iff the payload fails to decode into its argument type |
| Tools.ToolNamesDistinct | dispatch_tools.go:27-79 | The nine tool names are pairwise distinct |
| Tools.Catalogue | dispatch_tools.go:26-79 | The registrations are the nine tools in source order. Each has its name, its description, the schema reflected from its argument type and its handler |
| Tools.CatalogueNamesUnique | dispatch_tools.go:27-79 | No later catalogue entry reuses an earlier entry's name |
| Tools.CatalogueAdvertised | dispatch_tools.go:26-79 | Registering the catalogue appends the nine definitions, in source order, after the existing tools |
| Tools.CatalogueNames | dispatch_tools.go:27-79 | The catalogue registers exactly the nine tool names |
| Tools.CatalogueKeys | dispatch_tools.go:26-79 | Registering the catalogue binds exactly the existing names plus the nine |
| Tools.CatalogueHandler | dispatch_tools.go:26-79 | After registering the catalogue, each tool name is bound to its own handler |
| Tools.CatalogueKeepsOthers | dispatch_tools.go:26-79 | Registering the catalogue leaves every other binding alone |
| Tools.RegisterTools | dispatch_tools.go:26-98 | RegisterTools keeps the thread, working directory and model. The nine definitions and bindings it adds are stated by RegisterToolsAdvertises and RegisterToolsBinds |
| Tools.RegisterToolsAdvertises | dispatch_tools.go:26-98 | RegisterTools appends the nine definitions in the order fs_list, fs_tree, fs_read, fs_write, fs_move, fs_remove, sql_exec, sql_query, python_execute. The thread, working directory and model are unchanged |
| Tools.RegisterToolsBinds | dispatch_tools.go:26-98 | RegisterTools binds exactly the existing names plus the nine, each to its handler over the dispatcher's working directory (python_execute to PythonAsWritten, as the source registers it), and keeps every other binding |
| Tools.NewDispatcher | dispatch.go:38-64 | A new dispatcher starts with an empty thread and the given working directory and model. Its nine tools and handlers are stated by FreshDispatcher |
| Tools.FreshDispatcher | dispatch.go:38-64 | A new dispatcher has an empty thread and the given working directory and model. It advertises exactly the nine tools in order and binds exactly their names to their handlers, python_execute to PythonAsWritten |
| Tools.GuardedCall | dispatch_tools.go:447-456 | A guarded handler behind a decode that succeeds gives the handler's outcome on success, and its flattened error as a successful value on failure |
| Tools.PythonHandlerIsAsWritten | dispatch_tools.go:75-79 | The handler registered as python_execute is the guarded PythonAsWritten: on decoded arguments it gives PythonAsWritten's outcome, or its flattened error as a value |
| Tools.OnlyUnknownOrUndecodableFail | dispatch.go:222-229 | On a new dispatcher a call reports an error only for an unknown name, answered "function not found", or for a payload that fails to decode. A handler's own failure never does |
| Bootstrap.ResolveToken | main.go:80-91 | A token without a leading "$" is used verbatim. A "$" token resolves iff the name after the "$" is non-empty and that variable is set and non-empty, to its value. Otherwise the fatal message names the token. Only "$" tokens fail |
| Bootstrap.Getenv | main.go:82 | The value is non-empty iff the name is non-empty and names a set, non-empty variable, and then it is that variable's value. The empty name always reads as empty |
| Bootstrap.BareDollarFails | main.go:81-88 | The bare token "$" always fails with the unset-variable message, whatever the environment holds |
| Bootstrap.ShouldAsk | main.go:132-138 | The program prompts first iff the restored thread does not end with a user message |
| Strings.TrimSpaceTrims | main.go:168 | The trimmed line neither starts nor ends with white space and sits in the line with only white space around it. It is empty iff the line is all white space |
| Bootstrap.PromptStdin | main.go:155-180 | Lines that trim to nothing are skipped. The first other line is returned trimmed and non-empty, with the count of lines read. Nothing is returned iff every line is blank |
| Bootstrap.PromptStdinTrimmed | main.go:168-178 | What PromptStdin returns is non-empty and neither starts nor ends with white space |
| Bootstrap.PromptStdinSplits | main.go:155-180 | One stdin prompt returns the first of the trimmed non-blank lines and leaves the rest of them to later prompts |
| Bootstrap.Prompt | main.go:117-130 | While scripted prompts remain, the closure returns the next one verbatim and advances the index by one; every successful call consumes input |
| Bootstrap.PromptDelegatesToStdin | main.go:119-121 | Once the scripted prompts are used up, the closure returns exactly what PromptStdin returns (nothing when stdin has no non-blank line) and leaves the index alone |
| Bootstrap.StdinOutputs | main.go:119-121 | Once the scripted prompts are used up, the closure yields exactly the trimmed non-blank stdin lines |
| Bootstrap.PromptOutputsAre | main.go:117-130 | Successive prompts yield the scripted prompts not yet handed out, in order (empty ones included), then the trimmed non-blank stdin lines |
| Bootstrap.FreshConsoleOutputs | main.go:117-130 | From index 0 the closure yields all scripted prompts, then the trimmed non-blank stdin lines |
| Bootstrap.Loop | main.go:147-152 | The loop runs at most the given number of turns. The first turn starts from the given dispatcher |
| Bootstrap.LoopStops | main.go:147-152 | With no turns left the run is out of turns. A fatal first turn ends the run after that one state, dying with the turn's error. A first turn that would block ends it after that one state, waiting |
| Bootstrap.LoopRunsOut | main.go:147-152 | A run that ends out of turns went through exactly as many turns as it was given |
| Bootstrap.LoopContinues | main.go:147-152 | A turn that goes on puts its dispatcher in front of the states of the rest of the run, and the run stops however the rest stops |
| Bootstrap.LoopHistory | main.go:147-152 | Turn k starts from the thread with 2k messages appended and nothing else changed. Every turn after the first starts with the user's message last |
| Bootstrap.Run | main.go:132-152 | A thread ending with the user's message goes straight into the loop. Otherwise the program prompts first and waits forever if every input is empty. When a prompt succeeds, the loop starts from the dispatcher holding that message, and only the inputs the prompt did not consume remain |
| Bootstrap.EveryCompletionFollowsUser | main.go:132-152 | Every turn the program runs, and so every completion request, starts with the thread ending in a user message |
| Bootstrap.Main | main.go:80-103 | Start-up fails iff the token does not resolve or the saved thread cannot be restored. An unresolved token fails with ResolveToken's message, and otherwise a failed restore fails with the read error's text |
| Bootstrap.MainRunsRestoredThread | main.go:93-152 | After a successful start every turn runs on the fresh nine-tool dispatcher, differing from it only in the thread, and that thread extends the restored one |
| Bootstrap.MainFollowsUser | main.go:80-152 | After a successful start every completion request follows a user message. A restored thread that already ends with one is used as is |

## Left out

- tts.go, ratelimit.go and patch.go are not part of this model. tts.go is a
  network and mplayer call the core never makes. The rate limiter is
  wall-clock pacing. patch.go is entirely commented out.
- The unregistered tools `httpRequest`, `aiSummarize` and `ollamaRun`: their
  registrations are commented out, and they are network or subprocess
  calls. `ai` is a helper that returns nothing and was never registered.
- The retry sleep in `complete` and all logging: time and output only.
- Real effects: files, SQLite, `tree`, `python3`. They are results of the
  `World` oracle. Their contents, and interference between calls, are not
  modelled.
- `encoding/json` and `jsonschema.Reflect`: foreign libraries. They are the
  `Codec` parameters and the `marshal` parameter.
- `filepath.Join` cleaning. `Join` here concatenates with one separator and
  drops an empty or "." element. `IsAbs` is a leading "/", as on POSIX.
  So no claim here covers names that Go's cleaning rewrites. A script name
  that cleans to "." such as "./" or ".//" resolves to the working
  directory in the source, and python_execute then escapes to "/work.py"
  just as for "". The model joins it as "/work/./" and does not show that
  escape. A name with a trailing slash such as "x/" is run from
  "/work/x.py" by the source but from "/work/x/.py" by the corrected
  handler.
  `filepath.Abs`, `MkdirAll` and `Chdir` of the working directory in main
  are I/O and are left out.
- `readThread` and `saveThread`: file persistence. The restored thread is a
  parameter of `Bootstrap.Main`. The source's `WriteMessage` calls
  `saveThread` but ignores its error, and `WriteToolCall` does not save at
  all. So no save failure is ever fatal, and the model has no such error
  path. A failed `readThread` is fatal, and `Bootstrap.Main` models it as
  a Failure.
- The anthropic client, the token's use in it, and the verbose flag: the
  token is only resolved.
- Goroutines, the WaitGroup and the channel: only the arrival order is
  modelled, as a permutation chosen per turn and batch size.
- karma-go's exact layout: errors are a chain of contexts with two
  renderings, the Error() text and Flatten. The "call: name(input)" failure
  log in `handleToolCalls` is logging and is not modelled.
- `PromptStdin`'s fresh scanner per prompt may lose input buffered by an
  earlier scanner. That is not modelled: stdin is a sequence of lines.
  Also not modelled: the "λ " prompt and the blank lines printed around it.
- Bootstrap.Loop: runs a bounded number of turns instead of forever.
  `Waiting` stands for a turn that would block forever, either on a
  provider that never replies or on input that is always empty.
- Dispatch.Complete: the provider is a finite sequence of outcomes. Running
  out of it stands for the source retrying forever.

## Findings

| source | as written | input that shows it | evidently intended | confidence | as-written member | corrected member |
|---|---|---|---|---|---|---|
| dispatch_tools.go:382-389 | python_execute sandboxes the script name first and then appends ".py" to the resolved path | script_name "" (or "." or "/") with working directory /work: the sandbox yields "/work", and the script is written to and run from "/work.py", a sibling of the working directory. Under Go's path cleaning, any name that cleans to ".", such as "./", does the same | the script stays inside the working directory like every other tool path | not executed | Tools.PythonAsWritten, Tools.PythonAsWrittenEscapes | Tools.Python, Tools.ScriptPath, Tools.PythonStaysInside |

The registered `python_execute` handler is PythonAsWritten, as in the
source (Tools.PythonHandlerIsAsWritten). The corrected Tools.Python is
proved to stay inside the working directory. Tools.PythonAgreesInside
shows that it behaves exactly as PythonAsWritten for every script name
other than "", "." and "/". Both claims are about this model's
non-cleaning `Join`. Under Go's cleaning, more names escape, as listed
under "Left out".

=== FILE: bootstrap.dfy ===
/**
 main.go: token resolution, the scripted prompt feeder, the stdin prompt,
 the ask-first decision and the endless communicate loop.
 */
module Bootstrap {
  import opened Wrappers
  import opened Strings
  import opened Karma
  import opened Values
  import opened Messages
  import opened Dispatch
  import opened Host
  import opened Decode
  import opened Tools

  /** The fatal message main.go logs when a `$` token names an unset variable. */
  function UnsetTokenMessage(token: string): string {
    "the environment variable " + token + " is not set. Specify the environment value or pass it via --token flag."
  }

  /**
   os.Getenv over the process environment `env`: a missing variable reads as
   "", and so does the empty name, which Go never looks up.
   */
  function Getenv(env: map<string, string>, name: string): (value: string)
    ensures value != "" <==> name != "" && name in env && env[name] != ""
    ensures value != "" ==> value == env[name]
  {
    if name != "" && name in env then env[name] else ""
  }

  /**
   The --token value (main.go:80-91): a leading `$` names an environment
   variable, read with Getenv; an empty value is fatal. Any other token is
   used verbatim.
   */
  function ResolveToken(token: string, env: map<string, string>): (r: Result<string, string>)
    ensures !HasPrefix(token, "$") ==> r == Success(token)
    ensures HasPrefix(token, "$") ==>
              (r.Success? <==> token[1..] != "" && token[1..] in env && env[token[1..]] != "")
    ensures HasPrefix(token, "$") && r.Success? ==> r.value == env[token[1..]]
    ensures r.Failure? ==> HasPrefix(token, "$") && r.error == UnsetTokenMessage(token)
  {
    if HasPrefix(token, "$") then
      var value := Getenv(env, token[1..]);
      if value == "" then Failure(UnsetTokenMessage(token)) else Success(value)
    else Success(token)
  }

  /** A bare "$" names no variable: it is fatal whatever the environment holds, even under the empty name. */
  lemma BareDollarFails(env: map<string, string>)
    ensures ResolveToken("$", env) == Failure(UnsetTokenMessage("$"))
  {
    assert HasPrefix("$", "$") && "$"[1..] == "";
  }

  /**
   The ask decision (main.go:132-138): prompt before the first completion
   iff the restored thread is empty or its newest message is not the user's.
   */
  function ShouldAsk(thread: seq<Message>): (ask: bool)
    ensures ask <==> !LastIsUser(thread)
  {
    |thread| == 0 || thread[|thread| - 1].role != User
  }

  /** A line PromptStdin returns: the trimmed text and how many stdin lines it read. */
  datatype Line = Line(text: string, used: nat)

  /** The line trims to nothing, so PromptStdin reads on. */
  predicate Blank(line: string) {
    TrimSpace(line) == ""
  }

  /** The first non-empty text and how many texts were read to reach it. */
  function FirstNonEmpty(texts: seq<string>): (r: Option<Line>)
    ensures r.None? <==> forall k :: 0 <= k < |texts| ==> texts[k] == ""
    ensures r.Some? ==> 1 <= r.value.used <= |texts| && r.value.text != ""
    ensures r.Some? ==> r.value.text == texts[r.value.used - 1]
    ensures r.Some? ==> forall k :: 0 <= k < r.value.used - 1 ==> texts[k] == ""
    decreases |texts|
  {
    if |texts| == 0 then None
    else if texts[0] != "" then Some(Line(texts[0], 1))
    else
      assert forall k :: 1 <= k < |texts| ==> texts[k] == texts[1..][k - 1];
      match FirstNonEmpty(texts[1..])
      case None => None
      case Some(line) => Some(line.(used := line.used + 1))
  }

  /** Every line trimmed. */
  function Trimmed(lines: seq<string>): (t: seq<string>)
    ensures |t| == |lines| && forall k :: 0 <= k < |lines| ==> t[k] == TrimSpace(lines[k])
  {
    seq(|lines|, k requires 0 <= k < |lines| => TrimSpace(lines[k]))
  }

  /**
   PromptStdin (main.go:155-180) over the lines stdin yields: skip lines that
   trim to nothing and return the first non-empty trimmed line with the
   number of lines read. None when every line is blank, where the source
   keeps prompting forever (at end of input it spins on empty reads).
   */
  function PromptStdin(lines: seq<string>): (r: Option<Line>)
    ensures r.None? <==> forall k :: 0 <= k < |lines| ==> Blank(lines[k])
    ensures r.Some? ==> 1 <= r.value.used <= |lines| && r.value.text != ""
    ensures r.Some? ==> r.value.text == TrimSpace(lines[r.value.used - 1])
    ensures r.Some? ==> forall k :: 0 <= k < r.value.used - 1 ==> Blank(lines[k])
  {
    FirstNonEmpty(Trimmed(lines))
  }

  /** Every trimmed line is unpadded. */
  lemma TrimmedUnpadded(lines: seq<string>)
    ensures forall k :: 0 <= k < |lines| ==> Unpadded(Trimmed(lines)[k])
  {
    forall k | 0 <= k < |lines| ensures Unpadded(Trimmed(lines)[k]) {
      TrimmedIsUnpadded(Trimmed(lines)[k], lines[k]);
    }
  }

  /** The text FirstNonEmpty picks is one of its texts, so it is unpadded when they all are. */
  lemma FirstNonEmptyUnpadded(texts: seq<string>)
    requires forall k :: 0 <= k < |texts| ==> Unpadded(texts[k])
    ensures FirstNonEmpty(texts).Some? ==> Unpadded(FirstNonEmpty(texts).value.text)
  {
  }

  /** What PromptStdin returns is never empty and neither starts nor ends with white space. */
  lemma PromptStdinTrimmed(lines: seq<string>)
    ensures PromptStdin(lines).Some? ==>
              PromptStdin(lines).value.text != "" && Unpadded(PromptStdin(lines).value.text)
  {
    TrimmedUnpadded(lines);
    FirstNonEmptyUnpadded(Trimmed(lines));
  }

  /** The scripted --prompt values, how many the closure has handed out, and unread stdin lines. */
  datatype Console = Console(scripted: seq<string>, index: nat, stdin: seq<string>)

  /** How much the console can still produce; every prompt lowers it. */
  function Remaining(c: Console): nat {
    (if c.index < |c.scripted| then |c.scripted| - c.index else 0) + |c.stdin|
  }

  /**
   The prompt closure (main.go:117-130): the next scripted prompt, advancing
   the index, and once those are used up the stdin prompt, leaving the index
   where it is.
   */
  function Prompt(c: Console): (r: Option<(string, Console)>)
    ensures c.index < |c.scripted| ==>
              r == Some((c.scripted[c.index], c.(index := c.index + 1)))
    ensures r.Some? ==> Remaining(r.value.1) < Remaining(c)
  {
    if c.index >= |c.scripted| then
      match PromptStdin(c.stdin)
      case None => None
      case Some(line) => Some((line.text, c.(stdin := c.stdin[line.used..])))
    else
      var result := c.scripted[c.index];
      Some((result, c.(index := c.index + 1)))
  }

  /**
   Once the scripted prompts are used up, prompt() is PromptStdin: it
   returns what PromptStdin returns, consumes the lines it read and leaves
   the index where it is.
   */
  lemma PromptDelegatesToStdin(c: Console)
    requires c.index >= |c.scripted|
    ensures Prompt(c).None? <==> PromptStdin(c.stdin).None?
    ensures Prompt(c).Some? ==>
              var line := PromptStdin(c.stdin).value;
              Prompt(c).value == (line.text, c.(stdin := c.stdin[line.used..]))
  {
  }

  /** Everything successive prompt() calls return, until stdin runs dry. */
  function PromptOutputs(c: Console): seq<string>
    decreases Remaining(c)
  {
    match Prompt(c)
    case None => []
    case Some((text, next)) => [text] + PromptOutputs(next)
  }

  /** The non-empty texts, in order. */
  function NonEmpty(texts: seq<string>): (r: seq<string>)
    ensures forall k :: 0 <= k < |r| ==> r[k] != ""
    ensures |r| <= |texts|
  {
    if |texts| == 0 then []
    else if texts[0] == "" then NonEmpty(texts[1..])
    else [texts[0]] + NonEmpty(texts[1..])
  }

  /** Taking the first non-empty text splits the non-empty texts into it and the rest. */
  lemma {:induction false} FirstNonEmptySplits(texts: seq<string>)
    ensures FirstNonEmpty(texts).None? ==> NonEmpty(texts) == []
    ensures FirstNonEmpty(texts).Some? ==>
              var line := FirstNonEmpty(texts).value;
              NonEmpty(texts) == [line.text] + NonEmpty(texts[line.used..])
    decreases |texts|
  {
    if |texts| > 0 && texts[0] == "" {
      FirstNonEmptySplits(texts[1..]);
      match FirstNonEmpty(texts[1..])
      case None =>
      case Some(line) =>
        assert texts[1..][line.used..] == texts[line.used + 1..];
    }
  }

  /** Trimming commutes with dropping lines. */
  lemma TrimmedDrop(lines: seq<string>, n: nat)
    requires n <= |lines|
    ensures Trimmed(lines)[n..] == Trimmed(lines[n..])
  {
    var a, b := Trimmed(lines)[n..], Trimmed(lines[n..]);
    forall k | 0 <= k < |a| ensures a[k] == b[k] {
      assert lines[n..][k] == lines[n + k];
    }
  }

  /** The non-blank stdin lines, trimmed: an independent account of what PromptStdin yields. */
  function NonBlankLines(lines: seq<string>): (r: seq<string>)
    ensures forall k :: 0 <= k < |r| ==> r[k] != ""
  {
    NonEmpty(Trimmed(lines))
  }

  /** Reading one prompt from stdin consumes exactly the blank lines ahead of the first non-blank one. */
  lemma PromptStdinSplits(lines: seq<string>)
    ensures PromptStdin(lines).None? ==> NonBlankLines(lines) == []
    ensures PromptStdin(lines).Some? ==>
              var line := PromptStdin(lines).value;
              NonBlankLines(lines) == [line.text] + NonBlankLines(lines[line.used..])
  {
    FirstNonEmptySplits(Trimmed(lines));
    if PromptStdin(lines).Some? {
      var n := PromptStdin(lines).value.used;
      TrimmedDrop(lines, n);
    }
  }

  /** Once the scripted prompts are used up, the closure yields the non-blank stdin lines, trimmed. */
  lemma {:induction false} StdinOutputs(c: Console)
    requires c.index >= |c.scripted|
    ensures PromptOutputs(c) == NonBlankLines(c.stdin)
    decreases |c.stdin|
  {
    PromptStdinSplits(c.stdin);
    match PromptStdin(c.stdin)
    case None =>
      assert PromptOutputs(c) == [];
    case Some(line) =>
      var next := c.(stdin := c.stdin[line.used..]);
      assert PromptOutputs(c) == [line.text] + PromptOutputs(next);
      StdinOutputs(next);
  }

  /** While scripted prompts remain, the next output is the next scripted prompt. */
  lemma ScriptedStep(c: Console)
    requires c.index < |c.scripted|
    ensures PromptOutputs(c) == [c.scripted[c.index]] + PromptOutputs(c.(index := c.index + 1))
  {
    assert Prompt(c) == Some((c.scripted[c.index], c.(index := c.index + 1)));
  }

  /**
   The prompt closure yields the scripted prompts not yet handed out, in
   order and verbatim (empty ones included), and then the non-blank stdin
   lines, trimmed.
   */
  lemma {:induction false} PromptOutputsAre(c: Console)
    requires c.index <= |c.scripted|
    ensures PromptOutputs(c) == c.scripted[c.index..] + NonBlankLines(c.stdin)
    decreases |c.scripted| - c.index
  {
    if c.index < |c.scripted| {
      var next := c.(index := c.index + 1);
      ScriptedStep(c);
      PromptOutputsAre(next);
      DropUncons(c.scripted, c.index);
      ConcatAssoc([c.scripted[c.index]], c.scripted[next.index..], NonBlankLines(c.stdin));
    } else {
      StdinOutputs(c);
      assert c.scripted[c.index..] == [];
    }
  }

  /** From a fresh start: all the scripted prompts, then the non-blank stdin lines. */
  lemma FreshConsoleOutputs(scripted: seq<string>, stdin: seq<string>)
    ensures PromptOutputs(Console(scripted, 0, stdin)) == scripted + NonBlankLines(stdin)
  {
    PromptOutputsAre(Console(scripted, 0, stdin));
  }

  /** Why the modelled run stopped. */
  datatype Stop = OutOfTurns | Died(err: Error) | Waiting

  /**
   A run of the main loop: the dispatcher each Communicate call started from,
   in order, and why the run stopped.
   */
  datatype Session = Session(states: seq<Dispatcher>, stop: Stop)

  /**
   The main loop (main.go:147-152): Communicate again and again; an error is
   fatal. `turns` bounds the otherwise endless loop, and Waiting stands for a
   turn that would block forever.
   */
  function Loop(
    d: Dispatcher, env: Env, schedule: (nat, nat) -> seq<nat>,
    marshal: Value -> Result<string, Error>, turns: nat): (r: Session)
    requires Schedules(schedule)
    ensures |r.states| <= turns
    ensures turns > 0 ==> |r.states| > 0 && r.states[0] == d
    decreases turns
  {
    if turns == 0 then Session([], OutOfTurns)
    else
      match Communicate(d, env, schedule, marshal)
      case Blocked => Session([d], Waiting)
      case Fatal(e) => Session([d], Died(e))
      case Continue(next, rest) =>
        var tail := Loop(next, rest, schedule, marshal, turns - 1);
        Session([d] + tail.states, tail.stop)
  }

  /**
   How a run stops (main.go:147-152): a fatal turn ends it with that turn's
   error (log.Fatal), a turn that would block forever ends it waiting, and
   with no turns left the run is out of turns.
   */
  lemma LoopStops(
    d: Dispatcher, env: Env, schedule: (nat, nat) -> seq<nat>,
    marshal: Value -> Result<string, Error>, turns: nat)
    requires Schedules(schedule)
    ensures turns == 0 ==> Loop(d, env, schedule, marshal, turns) == Session([], OutOfTurns)
    ensures turns > 0 && Communicate(d, env, schedule, marshal).Fatal? ==>
              Loop(d, env, schedule, marshal, turns) == Session([d], Died(Communicate(d, env, schedule, marshal).err))
    ensures turns > 0 && Communicate(d, env, schedule, marshal).Blocked? ==>
              Loop(d, env, schedule, marshal, turns) == Session([d], Waiting)
  {
  }

  /** The run from `d` that ran out of turns went through all `turns` of them. */
  ghost predicate UsesAllTurns(
    d: Dispatcher, env: Env, schedule: (nat, nat) -> seq<nat>,
    marshal: Value -> Result<string, Error>, turns: nat)
    requires Schedules(schedule)
  {
    Loop(d, env, schedule, marshal, turns).stop.OutOfTurns? ==>
      |Loop(d, env, schedule, marshal, turns).states| == turns
  }

  /** A run that neither dies nor waits goes through every turn it is given. */
  lemma {:induction false} LoopRunsOut(
    d: Dispatcher, env: Env, schedule: (nat, nat) -> seq<nat>,
    marshal: Value -> Result<string, Error>, turns: nat)
    requires Schedules(schedule)
    ensures UsesAllTurns(d, env, schedule, marshal, turns)
    decreases turns
  {
    if turns > 0 {
      match Communicate(d, env, schedule, marshal)
      case Blocked =>
      case Fatal(_) =>
      case Continue(next, rest) =>
        LoopRunsOut(next, rest, schedule, marshal, turns - 1);
        UsesAllTurnsStep(d, env, schedule, marshal, turns, next, rest);
    }
  }

  /** One continuing turn passes UsesAllTurns back from the rest of the run. */
  lemma UsesAllTurnsStep(
    d: Dispatcher, env: Env, schedule: (nat, nat) -> seq<nat>,
    marshal: Value -> Result<string, Error>, turns: nat, next: Dispatcher, rest: Env)
    requires Schedules(schedule) && turns > 0
    requires Communicate(d, env, schedule, marshal) == Continue(next, rest)
    ensures UsesAllTurns(d, env, schedule, marshal, turns) == UsesAllTurns(next, rest, schedule, marshal, turns - 1)
  {
  }

  /**
   A turn that goes on puts `d` in front of the states the rest of the loop
   runs through, and the run stops however the rest of it stops.
   */
  lemma LoopContinues(
    d: Dispatcher, env: Env, schedule: (nat, nat) -> seq<nat>,
    marshal: Value -> Result<string, Error>, turns: nat, next: Dispatcher, rest: Env)
    requires Schedules(schedule) && turns > 0
    requires Communicate(d, env, schedule, marshal) == Continue(next, rest)
    ensures Loop(d, env, schedule, marshal, turns) ==
              Session([d] + Loop(next, rest, schedule, marshal, turns - 1).states,
                       Loop(next, rest, schedule, marshal, turns - 1).stop)
  {
  }

  /**
   Turn k starts from `d` with 2k more messages appended to its thread and
   nothing else changed.
   */
  ghost predicate KeepsHistory(d: Dispatcher, states: seq<Dispatcher>) {
    forall k :: 0 <= k < |states| ==>
      && |states[k].thread| == |d.thread| + 2 * k
      && states[k].thread[..|d.thread|] == d.thread
      && states[k] == d.(thread := states[k].thread)
  }

  /** Every turn after the first starts with the user's message last. */
  predicate UserLastAfterFirst(states: seq<Dispatcher>) {
    forall k :: 0 < k < |states| ==> LastIsUser(states[k].thread)
  }

  /** One more turn in front: a turn that appends two messages ending with the user's keeps both invariants. */
  lemma HistoryStep(d: Dispatcher, next: Dispatcher, states: seq<Dispatcher>)
    requires |next.thread| == |d.thread| + 2 && next.thread[..|d.thread|] == d.thread
    requires next == d.(thread := next.thread) && LastIsUser(next.thread)
    requires |states| > 0 ==> states[0] == next
    requires KeepsHistory(next, states) && UserLastAfterFirst(states)
    ensures KeepsHistory(d, [d] + states) && UserLastAfterFirst([d] + states)
  {
    var r := [d] + states;
    forall k | 1 <= k < |r|
      ensures |r[k].thread| == |d.thread| + 2 * k
      ensures r[k].thread[..|d.thread|] == d.thread
      ensures r[k] == d.(thread := r[k].thread)
      ensures LastIsUser(r[k].thread)
    {
      var t := states[k - 1];
      assert r[k] == t;
      assert t.thread[..|d.thread|] == t.thread[..|next.thread|][..|d.thread|];
    }
  }

  /**
   Each turn of the loop adds two messages and keeps everything before them
   (the thread only grows), leaves the rest of the dispatcher alone, and
   starts every turn after the first with the user's message last.
   */
  lemma {:induction false} LoopHistory(
    d: Dispatcher, env: Env, schedule: (nat, nat) -> seq<nat>,
    marshal: Value -> Result<string, Error>, turns: nat)
    requires Schedules(schedule)
    ensures KeepsHistory(d, Loop(d, env, schedule, marshal, turns).states)
    ensures UserLastAfterFirst(Loop(d, env, schedule, marshal, turns).states)
    decreases turns
  {
    if turns > 0 {
      match Communicate(d, env, schedule, marshal)
      case Blocked =>
      case Fatal(_) =>
      case Continue(next, rest) =>
        TurnEndsWithUser(d, env, schedule, marshal);
        assert |next.thread| == |d.thread| + 2 && next.thread[..|d.thread|] == d.thread;
        assert next == d.(thread := next.thread) && LastIsUser(next.thread);
        var tail := Loop(next, rest, schedule, marshal, turns - 1);
        LoopContinues(d, env, schedule, marshal, turns, next, rest);
        LoopHistory(next, rest, schedule, marshal, turns - 1);
        HistoryStep(d, next, tail.states);
        assert Loop(d, env, schedule, marshal, turns).states == [d] + tail.states;
    }
  }

  /**
   main after the thread is restored (main.go:132-152): ask first when the
   thread does not end with the user's message, then loop. `inputs` is what
   successive prompt() calls return.
   */
  function Run(
    d: Dispatcher, inputs: seq<string>, provider: seq<ProviderResult>,
    schedule: (nat, nat) -> seq<nat>, marshal: Value -> Result<string, Error>, turns: nat): (r: Session)
    requires Schedules(schedule)
    ensures !ShouldAsk(d.thread) ==> r == Loop(d, Env(provider, inputs, 0), schedule, marshal, turns)
    ensures ShouldAsk(d.thread) && Interact(d, inputs).None? ==> r == Session([], Waiting)
    ensures ShouldAsk(d.thread) && Interact(d, inputs).Some? ==>
              r == Loop(Interact(d, inputs).value.d,
                        Env(provider, inputs[Interact(d, inputs).value.consumed..], 0), schedule, marshal, turns)
  {
    if ShouldAsk(d.thread) then
      match Interact(d, inputs)
      case None => Session([], Waiting)
      case Some(p) => Loop(p.d, Env(provider, inputs[p.consumed..], 0), schedule, marshal, turns)
    else Loop(d, Env(provider, inputs, 0), schedule, marshal, turns)
  }

  /**
   Every completion the program requests is made while the thread ends with
   the user's message: the ask-first decision establishes it and every turn
   of the loop restores it.
   */
  lemma EveryCompletionFollowsUser(
    d: Dispatcher, inputs: seq<string>, provider: seq<ProviderResult>,
    schedule: (nat, nat) -> seq<nat>, marshal: Value -> Result<string, Error>, turns: nat)
    requires Schedules(schedule)
    ensures var r := Run(d, inputs, provider, schedule, marshal, turns);
            forall k :: 0 <= k < |r.states| ==> LastIsUser(r.states[k].thread)
  {
    if ShouldAsk(d.thread) {
      match Interact(d, inputs)
      case None =>
      case Some(p) =>
        LoopHistory(p.d, Env(provider, inputs[p.consumed..], 0), schedule, marshal, turns);
    } else {
      LoopHistory(d, Env(provider, inputs, 0), schedule, marshal, turns);
      var r := Loop(d, Env(provider, inputs, 0), schedule, marshal, turns);
      assert Run(d, inputs, provider, schedule, marshal, turns) == r;
      assert turns > 0 ==> r.states[0] == d;
    }
  }

  /**
   The whole program after start-up: resolve the token, build the
   dispatcher, restore the thread (`saved` stands for readThread's result),
   then run on the prompt closure's outputs. A fatal start-up error is
   reported as Failure.
   */
  function Main(
    token: string, env: map<string, string>, cwd: string, model: string,
    saved: Result<seq<Message>, Error>, console: Console,
    provider: seq<ProviderResult>, schedule: (nat, nat) -> seq<nat>,
    marshal: Value -> Result<string, Error>, w: World, codec: Codec,
    turns: nat): (r: Result<Session, string>)
    requires Schedules(schedule)
    ensures r.Failure? <==> ResolveToken(token, env).Failure? || saved.Failure?
    ensures ResolveToken(token, env).Failure? ==> r == Failure(ResolveToken(token, env).error)
    ensures ResolveToken(token, env).Success? && saved.Failure? ==> r == Failure(ErrorText(saved.error))
  {
    match ResolveToken(token, env)
    case Failure(msg) => Failure(msg)
    case Success(_) =>
      match saved
      case Failure(e) => Failure(ErrorText(e))
      case Success(thread) =>
        Success(Run(NewDispatcher(cwd, model, w, codec).(thread := thread), PromptOutputs(console),
                    provider, schedule, marshal, turns))
  }

  /**
   A program that starts up asks for completions only with the user's message
   last, starting from the restored thread when it already ends that way.
   */
  lemma MainFollowsUser(
    token: string, env: map<string, string>, cwd: string, model: string,
    saved: Result<seq<Message>, Error>, console: Console,
    provider: seq<ProviderResult>, schedule: (nat, nat) -> seq<nat>,
    marshal: Value -> Result<string, Error>, w: World, codec: Codec, turns: nat)
    requires Schedules(schedule)
    ensures var r := Main(token, env, cwd, model, saved, console, provider, schedule, marshal, w, codec, turns);
            && (r.Success? ==> forall k :: 0 <= k < |r.value.states| ==> LastIsUser(r.value.states[k].thread))
            && (r.Success? && LastIsUser(saved.value) && turns > 0 ==> r.value.states[0].thread == saved.value)
  {
    if ResolveToken(token, env).Success? && saved.Success? {
      var d := NewDispatcher(cwd, model, w, codec).(thread := saved.value);
      EveryCompletionFollowsUser(d, PromptOutputs(console), provider, schedule, marshal, turns);
    }
  }

  /**
   A program that starts up runs every turn on the fresh nine-tool dispatcher
   (main.go:93-103): only the thread differs from it, and that thread
   extends the restored one.
   */
  lemma MainRunsRestoredThread(
    token: string, env: map<string, string>, cwd: string, model: string,
    saved: Result<seq<Message>, Error>, console: Console,
    provider: seq<ProviderResult>, schedule: (nat, nat) -> seq<nat>,
    marshal: Value -> Result<string, Error>, w: World, codec: Codec, turns: nat)
    requires Schedules(schedule)
    ensures var r := Main(token, env, cwd, model, saved, console, provider, schedule, marshal, w, codec, turns);
            r.Success? ==>
              forall k :: 0 <= k < |r.value.states| ==>
                && r.value.states[k] == NewDispatcher(cwd, model, w, codec).(thread := r.value.states[k].thread)
                && saved.value <= r.value.states[k].thread
  {
    if ResolveToken(token, env).Success? && saved.Success? {
      var d := NewDispatcher(cwd, model, w, codec).(thread := saved.value);
      var inputs := PromptOutputs(console);
      if ShouldAsk(d.thread) {
        match Interact(d, inputs)
        case None =>
        case Some(p) =>
          LoopHistory(p.d, Env(provider, inputs[p.consumed..], 0), schedule, marshal, turns);
          assert p.d.thread[..|d.thread|] == d.thread;
      } else {
        LoopHistory(d, Env(provider, inputs, 0), schedule, marshal, turns);
      }
    }
  }
}

=== FILE: decode.dfy ===
/**
 callTool (decode.go:12-26): the wrapper that turns a typed handler into a
 tool-call function by decoding the call's JSON input first.
 */
module Decode {
  import opened Wrappers
  import opened Strings
  import opened Karma
  import opened Values
  import opened Messages

  /** A registered tool: takes the raw call, returns Go's `(any, error)`. */
  type ToolCallFunc = ToolUse -> Outcome

  /** The error reported when the call's input does not decode. */
  function DecodeError(reason: Error, input: string): Error {
    Format(reason, "decode json of " + input)
  }

  /**
   callTool(fn) with JSON decoding into the handler's argument type given
   as `decode`: a decode failure is reported without running the handler,
   otherwise the handler's pair comes back untouched.
   */
  function CallTool<T>(decode: string -> Result<T, Error>, fn: T -> Outcome): (f: ToolCallFunc)
    ensures forall u: ToolUse :: decode(u.input).Failure? ==>
              f(u).value == Nil && f(u).err == Some(DecodeError(decode(u.input).error, u.input))
    ensures forall u: ToolUse :: decode(u.input).Success? ==> f(u) == fn(decode(u.input).value)
  {
    (u: ToolUse) =>
      match decode(u.input)
      case Failure(e) => Err(DecodeError(e, u.input))
      case Success(v) => fn(v)
  }

  /** On a decode failure the handler is never consulted: any two handlers give the same result. */
  lemma HandlerNotCalledOnDecodeFailure<T>(
    decode: string -> Result<T, Error>, fn1: T -> Outcome, fn2: T -> Outcome, u: ToolUse)
    requires decode(u.input).Failure?
    ensures CallTool(decode, fn1)(u) == CallTool(decode, fn2)(u)
    ensures CallTool(decode, fn1)(u).err.Some?
  {
  }

  /** The decode error's text quotes the raw payload that failed to decode. */
  lemma DecodeErrorQuotesInput(reason: Error, input: string)
    ensures Contains(ErrorText(DecodeError(reason, input)), input)
    ensures Contains(Flatten(DecodeError(reason, input)), input)
  {
    ContainsInfix("decode json of ", input, "\n└─ " + ErrorText(reason));
    assert "decode json of " + input + ("\n└─ " + ErrorText(reason)) == ErrorText(DecodeError(reason, input));
    ContainsInfix("decode json of ", input, ": " + Flatten(reason));
    assert "decode json of " + input + (": " + Flatten(reason)) == Flatten(DecodeError(reason, input));
  }
}

=== FILE: dispatch.dfy ===
/**
 The Dispatcher (dispatch.go): the tool registry, the fan-out over one batch
 of tool calls, the append-only thread and one turn of the conversation.
 */
module Dispatch {
  import opened Wrappers
  import opened Karma
  import opened Values
  import opened Messages
  import opened Permutations
  import opened Decode
  import Strings

  /** The dispatcher's state; the provider client, mutex and verbosity flag are not modelled. */
  datatype Dispatcher = Dispatcher(
    cwd: string,
    model: string,
    thread: seq<Message>,
    tools: seq<ToolDefinition>,
    funcs: map<string, ToolCallFunc>)

  /** NewDispatcher before its tools are registered (dispatch.go:46-59). */
  function Empty(cwd: string, model: string): (d: Dispatcher)
    ensures d.thread == [] && d.tools == [] && d.funcs == map[]
    ensures d.cwd == cwd && d.model == model
  {
    Dispatcher(cwd, model, [], [], map[])
  }

  /**
   The step register performs once the handler is wrapped: advertise one
   more tool at the end of the catalogue and bind its name. A name that is
   already bound is not refused: the catalogue grows anyway and the binding
   is replaced.
   */
  function Bind(d: Dispatcher, def: ToolDefinition, f: ToolCallFunc): Dispatcher
  {
    d.(tools := d.tools + [def], funcs := d.funcs[def.name := f])
  }

  /**
   register (dispatch.go:107-129): wrap the typed handler with its decoder
   and bind it. `schema` is what jsonschema.Reflect derives for the argument type.
   */
  function Register<T>(
    d: Dispatcher, name: string, description: string, schema: string,
    decode: string -> Result<T, Error>, fn: T -> Outcome): (r: Dispatcher)
    ensures |r.tools| == |d.tools| + 1 && r.tools[..|d.tools|] == d.tools
    ensures r.tools[|d.tools|] == ToolDefinition(name, description, schema)
    ensures r.funcs.Keys == d.funcs.Keys + {name}
    ensures r.funcs[name] == CallTool(decode, fn)
    ensures forall n :: n in d.funcs && n != name ==> r.funcs[n] == d.funcs[n]
    ensures r.cwd == d.cwd && r.model == d.model && r.thread == d.thread
  {
    Bind(d, ToolDefinition(name, description, schema), CallTool(decode, fn))
  }

  /** One entry of a catalogue to register: the advertised definition and its wrapped handler. */
  datatype Registration = Registration(definition: ToolDefinition, func: ToolCallFunc)

  /** The definitions of a list of registrations, in order. */
  function Definitions(regs: seq<Registration>): (defs: seq<ToolDefinition>)
    ensures |defs| == |regs| && forall k :: 0 <= k < |regs| ==> defs[k] == regs[k].definition
  {
    if |regs| == 0 then []
    else
      var defs := [regs[0].definition] + Definitions(regs[1..]);
      assert forall k :: 1 <= k < |regs| ==> regs[1..][k - 1] == regs[k];
      defs
  }

  /** The names a list of registrations binds. */
  function Names(regs: seq<Registration>): (names: set<string>)
    ensures forall n :: n in names <==> exists k :: 0 <= k < |regs| && regs[k].definition.name == n
  {
    if |regs| == 0 then {}
    else
      var names := {regs[0].definition.name} + Names(regs[1..]);
      assert forall k :: 1 <= k < |regs| ==> regs[1..][k - 1] == regs[k];
      assert forall n :: n in Names(regs[1..]) ==> exists k :: 0 <= k < |regs| && regs[k].definition.name == n by {
        forall n | n in Names(regs[1..]) ensures exists k :: 0 <= k < |regs| && regs[k].definition.name == n {
          var j :| 0 <= j < |regs[1..]| && regs[1..][j].definition.name == n;
          assert regs[j + 1].definition.name == n;
        }
      }
      names
  }

  /**
   Registering a list of tools one after the other: the catalogue grows by
   their definitions in order and the bound names grow by theirs.
   */
  function RegisterAll(d: Dispatcher, regs: seq<Registration>): (r: Dispatcher)
    ensures r.cwd == d.cwd && r.model == d.model && r.thread == d.thread
    decreases |regs|
  {
    if |regs| == 0 then d else RegisterAll(Bind(d, regs[0].definition, regs[0].func), regs[1..])
  }

  /** The catalogue grows by the registrations' definitions, in order. */
  lemma {:induction false} RegisterAllAdvertises(d: Dispatcher, regs: seq<Registration>)
    ensures RegisterAll(d, regs).tools == d.tools + Definitions(regs)
    decreases |regs|
  {
    if |regs| > 0 {
      var d1 := Bind(d, regs[0].definition, regs[0].func);
      RegisterAllAdvertises(d1, regs[1..]);
      assert Definitions(regs) == [regs[0].definition] + Definitions(regs[1..]);
      assert d1.tools + Definitions(regs[1..]) == d.tools + Definitions(regs) by {
        Strings.ConcatAssoc(d.tools, [regs[0].definition], Definitions(regs[1..]));
      }
    }
  }

  /** The bound names grow by the registrations' names. */
  lemma {:induction false} RegisterAllBinds(d: Dispatcher, regs: seq<Registration>)
    ensures RegisterAll(d, regs).funcs.Keys == d.funcs.Keys + Names(regs)
    decreases |regs|
  {
    if |regs| > 0 {
      var d1 := Bind(d, regs[0].definition, regs[0].func);
      RegisterAllBinds(d1, regs[1..]);
      assert d1.funcs.Keys == d.funcs.Keys + {regs[0].definition.name};
    }
  }

  /** A name none of the registrations uses keeps its binding. */
  lemma {:induction false} RegisterAllKeepsOthers(d: Dispatcher, regs: seq<Registration>, n: string)
    requires n in d.funcs && n !in Names(regs)
    ensures n in RegisterAll(d, regs).funcs && RegisterAll(d, regs).funcs[n] == d.funcs[n]
    decreases |regs|
  {
    if |regs| > 0 {
      var d1 := Bind(d, regs[0].definition, regs[0].func);
      assert n != regs[0].definition.name;
      RegisterAllKeepsOthers(d1, regs[1..], n);
    }
  }

  /** Each name ends up bound to the last registration that used it. */
  lemma {:induction false} RegisterAllLastWins(d: Dispatcher, regs: seq<Registration>, k: nat)
    requires k < |regs|
    requires forall j :: k < j < |regs| ==> regs[j].definition.name != regs[k].definition.name
    ensures regs[k].definition.name in RegisterAll(d, regs).funcs
    ensures RegisterAll(d, regs).funcs[regs[k].definition.name] == regs[k].func
    decreases |regs|
  {
    var d1 := Bind(d, regs[0].definition, regs[0].func);
    if k == 0 {
      var n := regs[0].definition.name;
      assert n !in Names(regs[1..]) by {
        assert forall j :: 0 <= j < |regs[1..]| ==> regs[1..][j] == regs[j + 1];
      }
      RegisterAllKeepsOthers(d1, regs[1..], n);
    } else {
      assert regs[1..][k - 1] == regs[k];
      forall j | k - 1 < j < |regs[1..]| ensures regs[1..][j].definition.name != regs[1..][k - 1].definition.name {
        assert regs[1..][j] == regs[j + 1];
      }
      RegisterAllLastWins(d1, regs[1..], k - 1);
    }
  }

  /** Registering a name twice keeps one binding, the newest, but advertises the name twice. */
  lemma DuplicateRegistration<T>(
    d: Dispatcher, name: string, description: string, schema: string,
    decode: string -> Result<T, Error>, fn: T -> Outcome, earlier: nat)
    requires name in d.funcs
    requires earlier < |d.tools| && d.tools[earlier].name == name
    ensures var r := Register(d, name, description, schema, decode, fn);
            && r.funcs.Keys == d.funcs.Keys
            && r.funcs[name] == CallTool(decode, fn)
            && r.tools[earlier].name == name
            && r.tools[|r.tools| - 1].name == name
            && earlier != |r.tools| - 1
  {
    var r := Register(d, name, description, schema, decode, fn);
    assert r.tools[earlier] == d.tools[earlier];
  }

  /** The error for a name nothing was registered under. */
  const NotFound: Error := Plain("function not found")

  /** callFunction (dispatch.go:222-229). */
  function CallFunction(d: Dispatcher, call: ToolUse): (r: Outcome)
    ensures call.name !in d.funcs ==> r == Outcome(Nil, Some(NotFound))
    ensures call.name in d.funcs ==> r == d.funcs[call.name](call)
  {
    if call.name in d.funcs then d.funcs[call.name](call) else Err(NotFound)
  }

  /** An unknown name fails the same way whatever else is registered, and no handler runs. */
  lemma UnknownNameIndependentOfRegistry(d1: Dispatcher, d2: Dispatcher, call: ToolUse)
    requires call.name !in d1.funcs && call.name !in d2.funcs
    ensures CallFunction(d1, call) == CallFunction(d2, call) == Outcome(Nil, Some(NotFound))
  {
  }

  /** One joined goroutine's result: the call and what callFunction returned for it. */
  datatype CallResult = CallResult(call: ToolUse, out: Outcome)

  /**
   The tool-result block for one call (dispatch.go:191-211): the error's text
   when the call failed, the marshalled value otherwise. Only marshalling can fail.
   */
  function Entry(r: CallResult, marshal: Value -> Result<string, Error>): (c: Result<Content, Error>)
    ensures c.Failure? <==> r.out.err.None? && marshal(r.out.value).Failure?
    ensures c.Success? ==> c.value.ToolResult? && c.value.toolUseId == r.call.id
                           && (c.value.isError <==> r.out.err.Some?)
    ensures c.Success? && r.out.err.Some? ==> c.value.content == ErrorText(r.out.err.value)
    ensures c.Success? && r.out.err.None? ==> c.value.content == marshal(r.out.value).value
  {
    match r.out.err
    case Some(e) => Success(ToolResult(r.call.id, ErrorText(e), true))
    case None =>
      match marshal(r.out.value)
      case Failure(e) => Failure(e)
      case Success(raw) => Success(ToolResult(r.call.id, raw, false))
  }

  /** The blocks for all joined results in arrival order; the first marshal failure aborts. */
  function Entries(rs: seq<CallResult>, marshal: Value -> Result<string, Error>): (r: Result<seq<Content>, Error>)
    ensures r.Success? ==> |r.value| == |rs| && forall k :: 0 <= k < |rs| ==> Entry(rs[k], marshal) == Success(r.value[k])
    ensures r.Failure? <==> exists k :: 0 <= k < |rs| && Entry(rs[k], marshal).Failure?
    decreases |rs|
  {
    if |rs| == 0 then Success([])
    else
      match Entry(rs[0], marshal)
      case Failure(e) => Failure(e)
      case Success(c) =>
        var rest := Entries(rs[1..], marshal);
        assert forall k :: 1 <= k < |rs| ==> rs[k] == rs[1..][k - 1];
        match rest
        case Failure(e) => Failure(e)
        case Success(cs) => Success([c] + cs)
  }

  /** The calls' results in call order, before the fan-out reorders them. */
  function Results(d: Dispatcher, calls: seq<ToolUse>): (rs: seq<CallResult>)
    ensures |rs| == |calls|
    ensures forall i :: 0 <= i < |calls| ==> rs[i] == CallResult(calls[i], CallFunction(d, calls[i]))
  {
    seq(|calls|, i requires 0 <= i < |calls| => CallResult(calls[i], CallFunction(d, calls[i])))
  }

  /**
   handleToolCalls (dispatch.go:131-220). Every call runs; `order` is the
   order the goroutines delivered their results in. The batch becomes one
   user-role message holding one tool-result block per call, tagged with
   that call's id, flagged as an error exactly when the call returned one, and
   holding Entry's text: the error's text or the marshalled value.
   The only failure is a result value that does not marshal, and then
   nothing is appended.
   */
  function HandleToolCalls(
    d: Dispatcher, calls: seq<ToolUse>, order: seq<nat>,
    marshal: Value -> Result<string, Error>): (r: Result<Dispatcher, Error>)
    requires IsPermutation(order, |calls|)
    ensures r.Success? ==> |r.value.thread| == |d.thread| + 1 && r.value.thread[..|d.thread|] == d.thread
    ensures r.Success? ==> r.value == d.(thread := r.value.thread)
    ensures r.Success? ==>
              var m := r.value.thread[|d.thread|];
              && m.role == User
              && |m.content| == |calls|
              && forall k :: 0 <= k < |calls| ==>
                   && m.content[k].ToolResult?
                   && m.content[k].toolUseId == calls[order[k]].id
                   && (m.content[k].isError <==> CallFunction(d, calls[order[k]]).err.Some?)
                   && Entry(CallResult(calls[order[k]], CallFunction(d, calls[order[k]])), marshal) == Success(m.content[k])
    ensures r.Failure? <==> exists i :: 0 <= i < |calls| && CallFunction(d, calls[i]).err.None?
                                        && marshal(CallFunction(d, calls[i]).value).Failure?
  {
    var arrived := Permute(Results(d, calls), order);
    ArrivalKeepsFailures(d, calls, order, marshal);
    match Entries(arrived, marshal)
    case Failure(e) => Failure(e)
    case Success(content) => Success(WriteToolCall(d, Message(User, content)))
  }

  /** A call whose value does not marshal is among the arrived results, wherever it arrived. */
  lemma ArrivalKeepsFailures(
    d: Dispatcher, calls: seq<ToolUse>, order: seq<nat>, marshal: Value -> Result<string, Error>)
    requires IsPermutation(order, |calls|)
    ensures (exists k :: 0 <= k < |calls| && Entry(Permute(Results(d, calls), order)[k], marshal).Failure?)
            <==> exists i :: 0 <= i < |calls| && CallFunction(d, calls[i]).err.None?
                             && marshal(CallFunction(d, calls[i]).value).Failure?
  {
    var arrived := Permute(Results(d, calls), order);
    forall i | 0 <= i < |calls| && CallFunction(d, calls[i]).err.None? && marshal(CallFunction(d, calls[i]).value).Failure?
      ensures exists k :: 0 <= k < |calls| && Entry(arrived[k], marshal).Failure?
    {
      assert i in order;
      var k :| 0 <= k < |order| && order[k] == i;
      assert Entry(arrived[k], marshal).Failure?;
    }
  }

  /** The ids of a message's tool-result blocks, in order. */
  function ResultIds(content: seq<Content>): (ids: seq<string>)
    ensures |ids| == |content|
  {
    seq(|content|, k requires 0 <= k < |content| => if content[k].ToolResult? then content[k].toolUseId else "")
  }

  /** The ids of a batch of calls, in call order. */
  function CallIds(calls: seq<ToolUse>): (ids: seq<string>)
    ensures |ids| == |calls|
  {
    seq(|calls|, i requires 0 <= i < |calls| => calls[i].id)
  }

  /**
   Batch completeness: whatever order the results arrive in, the appended
   message answers every call once: its block ids are exactly the calls' ids,
   with the same multiplicities.
   */
  lemma {:induction false} BatchAnswersEveryCall(
    d: Dispatcher, calls: seq<ToolUse>, order: seq<nat>, marshal: Value -> Result<string, Error>)
    requires IsPermutation(order, |calls|)
    requires HandleToolCalls(d, calls, order, marshal).Success?
    ensures multiset(ResultIds(HandleToolCalls(d, calls, order, marshal).value.thread[|d.thread|].content))
            == multiset(CallIds(calls))
  {
    var m := HandleToolCalls(d, calls, order, marshal).value.thread[|d.thread|];
    assert ResultIds(m.content) == Permute(CallIds(calls), order);
    PermutePreservesMultiset(CallIds(calls), order);
  }

  /** A batch holding one call to a name nothing answers to, on an empty registry. */
  lemma UnknownToolScenario(cwd: string, model: string, marshal: Value -> Result<string, Error>)
    ensures var r := HandleToolCalls(Empty(cwd, model), [ToolUse("t1", "missing", "{}")], [0], marshal);
            && r.Success?
            && r.value.thread == [Message(User, [ToolResult("t1", "function not found", true)])]
  {
    var d := Empty(cwd, model);
    var call := ToolUse("t1", "missing", "{}");
    assert CallFunction(d, call) == Outcome(Nil, Some(NotFound));
    var arrived := Permute(Results(d, [call]), [0]);
    assert arrived == [CallResult(call, Err(NotFound))];
    assert Entry(arrived[0], marshal) == Success(ToolResult("t1", "function not found", true));
    var e := Entries(arrived, marshal);
    assert e.Success?;
    assert e.value == [e.value[0]];
  }

  /**
   WriteMessage (dispatch.go:231-261): appends one message at the end of the
   thread and changes nothing else. The persisting side (saveThread) is not
   modelled; the source ignores its error.
   */
  function WriteMessage(d: Dispatcher, m: Message): (r: Dispatcher)
    ensures |r.thread| == |d.thread| + 1
    ensures r.thread[..|d.thread|] == d.thread && r.thread[|d.thread|] == m
    ensures r == d.(thread := r.thread)
  {
    d.(thread := d.thread + [m])
  }

  /** WriteToolCall (dispatch.go:263-278): the same append, without persisting. */
  function WriteToolCall(d: Dispatcher, m: Message): (r: Dispatcher)
    ensures |r.thread| == |d.thread| + 1
    ensures r.thread[..|d.thread|] == d.thread && r.thread[|d.thread|] == m
    ensures r == d.(thread := r.thread)
  {
    d.(thread := d.thread + [m])
  }

  /** The request complete() sends: the whole thread and the whole catalogue. */
  datatype Request = Request(model: string, messages: seq<Message>, maxTokens: nat, tools: seq<ToolDefinition>)

  const MaxTokens: nat := 2000

  /** One CreateMessages attempt. */
  datatype ProviderResult = Replied(response: Response) | Unavailable(err: Error)

  /** A successful completion: the request, the reply, and how many attempts it took. */
  datatype Completion = Completion(request: Request, response: Response, attempts: nat)

  /**
   complete (dispatch.go:339-361): send the same request until an attempt
   succeeds. `provider` lists the attempts' outcomes in order; None means
   every listed attempt failed, where the source keeps retrying forever.
   */
  function Complete(d: Dispatcher, provider: seq<ProviderResult>): (r: Option<Completion>)
    ensures r.None? <==> forall k :: 0 <= k < |provider| ==> provider[k].Unavailable?
    ensures r.Some? ==>
              && 1 <= r.value.attempts <= |provider|
              && provider[r.value.attempts - 1] == Replied(r.value.response)
              && (forall k :: 0 <= k < r.value.attempts - 1 ==> provider[k].Unavailable?)
              && r.value.request == Request(d.model, d.thread, MaxTokens, d.tools)
    decreases |provider|
  {
    if |provider| == 0 then None
    else
      assert forall k :: 1 <= k < |provider| ==> provider[k] == provider[1..][k - 1];
      match provider[0]
      case Replied(response) => Some(Completion(Request(d.model, d.thread, MaxTokens, d.tools), response, 1))
      case Unavailable(_) =>
        match Complete(d, provider[1..])
        case None => None
        case Some(c) => Some(c.(attempts := c.attempts + 1))
  }

  /** Retry liveness: after `k` failures the first success is returned, and nothing after it is used. */
  lemma RetryUntilSuccess(d: Dispatcher, failures: seq<ProviderResult>, response: Response, later: seq<ProviderResult>)
    requires forall k :: 0 <= k < |failures| ==> failures[k].Unavailable?
    ensures var r := Complete(d, failures + [Replied(response)] + later);
            && r.Some?
            && r.value.response == response
            && r.value.attempts == |failures| + 1
  {
    var p := failures + [Replied(response)] + later;
    var r := Complete(d, p);
    assert p[|failures|].Replied?;
  }

  /** What interact consumed: the dispatcher after the append and how many prompt results it read. */
  datatype Prompted = Prompted(d: Dispatcher, consumed: nat)

  /** The user message interact writes for one input. */
  function UserText(input: string): Message {
    Message(User, [Text(input)])
  }

  /**
   interact (dispatch.go:317-337): read prompt results, skipping empty ones,
   and append the first non-empty one as a user message. `inputs` lists what
   successive prompt() calls return; None means all were empty, where the
   source keeps prompting forever.
   */
  function Interact(d: Dispatcher, inputs: seq<string>): (r: Option<Prompted>)
    ensures r.None? <==> forall k :: 0 <= k < |inputs| ==> inputs[k] == ""
    ensures r.Some? ==>
              var n := r.value.consumed;
              && 1 <= n <= |inputs|
              && inputs[n - 1] != ""
              && (forall k :: 0 <= k < n - 1 ==> inputs[k] == "")
              && r.value.d == WriteMessage(d, UserText(inputs[n - 1]))
    decreases |inputs|
  {
    if |inputs| == 0 then None
    else if inputs[0] != "" then Some(Prompted(WriteMessage(d, UserText(inputs[0])), 1))
    else
      assert forall k :: 1 <= k < |inputs| ==> inputs[k] == inputs[1..][k - 1];
      match Interact(d, inputs[1..])
      case None => None
      case Some(p) => Some(p.(consumed := p.consumed + 1))
  }

  /** The not-yet-consumed provider outcomes and prompt results, and how many turns have run. */
  datatype Env = Env(provider: seq<ProviderResult>, inputs: seq<string>, turn: nat)

  /**
   How a turn ends: ready for the next one, with a fatal error, or blocked
   where the source would wait forever (provider never succeeds, or only
   empty input arrives).
   */
  datatype Turn = Continue(d: Dispatcher, env: Env) | Fatal(err: Error) | Blocked

  /**
   Arrival orders the scheduler may produce: `schedule(t, n)` is the order in
   which the n goroutines of turn t deliver, any permutation, chosen afresh
   for every turn.
   */
  ghost predicate Schedules(schedule: (nat, nat) -> seq<nat>) {
    forall t: nat, n: nat :: IsPermutation(schedule(t, n), n)
  }

  /** The assistant message a completion is recorded as. */
  function Reply(d: Dispatcher, env: Env): Dispatcher
    requires Complete(d, env.provider).Some?
  {
    WriteMessage(d, Message(Assistant, Complete(d, env.provider).value.response.content))
  }

  /** The tool uses the completion of this turn requests. */
  function Requested(d: Dispatcher, env: Env): seq<ToolUse>
    requires Complete(d, env.provider).Some?
  {
    ToolUses(Complete(d, env.provider).value.response.content)
  }

  /**
   Communicate (dispatch.go:284-315): one completion, its assistant message,
   then either the tool batch it requests, without prompting, or one
   prompted user message.
   */
  function Communicate(
    d: Dispatcher, env: Env, schedule: (nat, nat) -> seq<nat>,
    marshal: Value -> Result<string, Error>): (r: Turn)
    requires Schedules(schedule)
    ensures Complete(d, env.provider).None? <==> r.Blocked? && forall k :: 0 <= k < |env.provider| ==> env.provider[k].Unavailable?
    ensures r.Continue? ==>
              var c := Complete(d, env.provider).value;
              && |r.d.thread| == |d.thread| + 2
              && r.d.thread[..|d.thread|] == d.thread
              && r.d.thread[|d.thread|] == Message(Assistant, c.response.content)
              && r.d.thread[|d.thread| + 1].role == User
              && r.d == d.(thread := r.d.thread)
              && r.env.provider == env.provider[c.attempts..]
    ensures r.Continue? && |ToolUses(Complete(d, env.provider).value.response.content)| > 0 ==>
              r.env.inputs == env.inputs
    ensures r.Fatal? ==> |ToolUses(Complete(d, env.provider).value.response.content)| > 0
    ensures r.Continue? ==> r.env.turn == env.turn + 1
    ensures Complete(d, env.provider).Some? && |Requested(d, env)| > 0 ==> !r.Blocked?
    ensures Complete(d, env.provider).Some? && |Requested(d, env)| == 0 ==>
              && !r.Fatal?
              && (r.Blocked? <==> forall k :: 0 <= k < |env.inputs| ==> env.inputs[k] == "")
  {
    match Complete(d, env.provider)
    case None => Blocked
    case Some(c) =>
      var d1 := Reply(d, env);
      var uses := Requested(d, env);
      var rest := env.provider[c.attempts..];
      if |uses| > 0 then
        match HandleToolCalls(d1, uses, schedule(env.turn, |uses|), marshal)
        case Failure(e) => Fatal(Format(e, "handle tool calls"))
        case Success(d2) => Continue(d2, Env(rest, env.inputs, env.turn + 1))
      else
        match Interact(d1, env.inputs)
        case None => Blocked
        case Some(p) =>
          Continue(p.d, Env(rest, env.inputs[p.consumed..], env.turn + 1))
  }

  /**
   A turn with tool uses is the tool batch: handleToolCalls of the requested
   uses, in this turn's arrival order, on the thread with the reply appended.
   It is fatal exactly when that fails, and otherwise continues with its result.
   */
  lemma CommunicateHandles(d: Dispatcher, env: Env, schedule: (nat, nat) -> seq<nat>, marshal: Value -> Result<string, Error>)
    requires Schedules(schedule)
    requires Complete(d, env.provider).Some? && |Requested(d, env)| > 0
    ensures var r := Communicate(d, env, schedule, marshal);
            var uses := Requested(d, env);
            var handled := HandleToolCalls(Reply(d, env), uses, schedule(env.turn, |uses|), marshal);
            && (r.Fatal? <==> handled.Failure?)
            && (r.Fatal? ==> r.err == Format(handled.error, "handle tool calls"))
            && (r.Continue? ==> handled == Success(r.d))
  {
  }

  /**
   A turn without tool uses prompts: it skips the empty inputs, records the
   first non-empty one as the user message and consumes the inputs up to it.
   */
  lemma CommunicatePrompts(d: Dispatcher, env: Env, schedule: (nat, nat) -> seq<nat>, marshal: Value -> Result<string, Error>)
    requires Schedules(schedule)
    requires Complete(d, env.provider).Some? && |Requested(d, env)| == 0
    ensures var r := Communicate(d, env, schedule, marshal);
            r.Continue? ==>
              var n := |env.inputs| - |r.env.inputs|;
              && 1 <= n <= |env.inputs| && r.env.inputs == env.inputs[n..]
              && env.inputs[n - 1] != "" && (forall k :: 0 <= k < n - 1 ==> env.inputs[k] == "")
              && r.d == WriteMessage(Reply(d, env), UserText(env.inputs[n - 1]))
  {
    var p := Interact(Reply(d, env), env.inputs);
    if p.Some? {
      assert |env.inputs| - |env.inputs[p.value.consumed..]| == p.value.consumed;
    }
  }

  /** After every turn that continues, the thread ends with a user message. */
  lemma TurnEndsWithUser(d: Dispatcher, env: Env, schedule: (nat, nat) -> seq<nat>, marshal: Value -> Result<string, Error>)
    requires Schedules(schedule)
    ensures Communicate(d, env, schedule, marshal).Continue? ==>
              LastIsUser(Communicate(d, env, schedule, marshal).d.thread)
  {
  }
}

=== FILE: filepath.dfy ===
/**
 POSIX stand-ins for the `path/filepath` calls the dispatcher makes.
 IsAbs is a leading "/". Join concatenates with one separator and drops an
 empty or "." element the way filepath.Join's cleaning does; the remaining
 cleaning rules are not modelled, and the directory is taken as already clean.
 */
module FilePath {
  import opened Strings

  /** filepath.IsAbs on POSIX. */
  predicate IsAbs(path: string) {
    HasPrefix(path, "/")
  }

  /** `dir` followed by exactly one separator. */
  function DirPrefix(dir: string): (p: string)
    ensures HasPrefix(p, dir) && HasSuffix(p, "/")
  {
    if |dir| > 0 && dir[|dir| - 1] == '/' then dir else dir + "/"
  }

  /** filepath.Join(dir, elem). */
  function Join(dir: string, elem: string): string {
    if dir == "" then elem
    else if elem == "" || elem == "." then dir
    else DirPrefix(dir) + elem
  }

  /** Index of the last "/" in `path`, or -1. */
  function LastSlash(path: string): (i: int)
    ensures -1 <= i < |path|
    ensures i >= 0 ==> path[i] == '/'
    ensures forall k :: i < k < |path| ==> path[k] != '/'
    decreases |path|
  {
    if |path| == 0 then -1
    else if path[|path| - 1] == '/' then |path| - 1
    else LastSlash(path[..|path| - 1])
  }

  /** filepath.Dir: everything before the last separator. */
  function Dir(path: string): string {
    var i := LastSlash(path);
    if i < 0 then "." else if i == 0 then "/" else path[..i]
  }

  /** `path` names `root` itself or something textually below it. */
  predicate Within(root: string, path: string) {
    path == root || HasPrefix(path, DirPrefix(root))
  }

  /** An absolute directory as filepath.Abs returns it: no trailing separator unless it is "/". */
  predicate CleanDir(dir: string) {
    IsAbs(dir) && (dir == "/" || dir[|dir| - 1] != '/')
  }

  /** The parent of anything strictly below a clean directory is that directory or lies below it. */
  lemma DirStaysWithin(root: string, path: string)
    requires CleanDir(root) && HasPrefix(path, DirPrefix(root)) && |path| > |DirPrefix(root)|
    ensures Within(root, Dir(path))
  {
    var p := DirPrefix(root);
    var i := LastSlash(path);
    assert path[|p| - 1] == p[|p| - 1] == '/';
    assert i >= |p| - 1;
    if i == |p| - 1 {
      if root != "/" {
        assert p == root + "/";
        assert path[..i] == p[..i] == root;
      }
    } else {
      assert path[..i][..|p|] == path[..|p|];
    }
  }
}

=== FILE: host.dfy ===
/**
 The outside world the tool handlers act on. Every filesystem, SQLite and
 subprocess call is an oracle: a field of `World` that maps the call's
 arguments to its outcome. Handlers also report the calls they made, in
 order, as a trace of `Effect`s.
 */
module Host {
  import opened Wrappers
  import opened Karma
  import opened Values

  /** One entry of os.ReadDir; `info` is what entry.Info() would return. */
  datatype DirEntry = DirEntry(name: string, isDir: bool, info: Result<int, Error>)

  /** sql.Result: LastInsertId() and RowsAffected(), each a value and an optional error. */
  datatype ExecResult = ExecResult(
    lastInsertId: int, lastInsertIdErr: Option<Error>,
    rowsAffected: int, rowsAffectedErr: Option<Error>)

  /** sql.Rows: the column list, then one Scan outcome per row Next() yields. */
  datatype Rows = Rows(columns: Result<seq<string>, Error>, scans: seq<Result<seq<Value>, Error>>)

  /** A call the dispatcher makes on the outside world. */
  datatype Effect =
    | ReadDir(path: string)
    | ReadContents(path: string)
    | MkdirAll(dir: string)
    | OpenFile(path: string, flags: bv32)
    | WriteString(path: string, contents: string)
    | Rename(from: string, to: string)
    | Remove(path: string)
    | RunTree(path: string)
    | SqlOpen(path: string)
    | SqlExec(path: string, query: string)
    | SqlQuery(path: string, query: string)
    | WriteScript(path: string, code: string)
    | RunPython(path: string)

  /**
   The paths an effect names as its target. MkdirAll is left out: it creates
   the parent of a target, and the parent of the working directory is outside it.
   */
  function Targets(e: Effect): seq<string> {
    match e
    case ReadDir(p) => [p]
    case ReadContents(p) => [p]
    case MkdirAll(_) => []
    case OpenFile(p, _) => [p]
    case WriteString(p, _) => [p]
    case Rename(f, t) => [f, t]
    case Remove(p) => [p]
    case RunTree(p) => [p]
    case SqlOpen(p) => [p]
    case SqlExec(p, _) => [p]
    case SqlQuery(p, _) => [p]
    case WriteScript(p, _) => [p]
    case RunPython(p) => [p]
  }

  /** The outcome of each external call, as a function of its arguments. */
  datatype World = World(
    readDir: string -> Result<seq<DirEntry>, Error>,
    readFile: string -> Result<string, Error>,
    mkdirAll: string -> Option<Error>,
    openFile: (string, bv32) -> Option<Error>,
    writeString: (string, string) -> Option<Error>,
    rename: (string, string) -> Option<Error>,
    remove: string -> Option<Error>,
    tree: string -> Result<string, Error>,
    sqlOpen: string -> Option<Error>,
    sqlExec: (string, string) -> Result<ExecResult, Error>,
    sqlQuery: (string, string) -> Result<Rows, Error>,
    writeScript: (string, string) -> Option<Error>,
    python: string -> Result<(string, string), Error>)
}

=== FILE: karma.dfy ===
/**
 Errors as the dispatcher builds them: a plain message (errors.New,
 fmt.Errorf) or a context string wrapped around a reason (karma.Format).
 */
module Karma {
  datatype Error = Plain(text: string) | Wrapped(context: string, reason: Error)

  /** karma.Format(reason, context): adds one level of context. */
  function Format(reason: Error, context: string): Error {
    Wrapped(context, reason)
  }

  /**
   The error's Error() text: the context, then the reason on the next line
   under a tree branch (karma's hierarchical layout, one level per wrap).
   */
  function ErrorText(e: Error): string {
    match e
    case Plain(text) => text
    case Wrapped(context, reason) => context + "\n└─ " + ErrorText(reason)
  }

  /** karma.Flatten: the whole chain on one line, levels joined by ": ". */
  function Flatten(e: Error): string {
    match e
    case Plain(text) => text
    case Wrapped(context, reason) => context + ": " + Flatten(reason)
  }
}

=== FILE: messages.dfy ===
/** The conversation shapes exchanged with the completion provider. */
module Messages {

  datatype Role = User | Assistant

  /** A tool invocation the model requested: correlation id, tool name, raw JSON input. */
  datatype ToolUse = ToolUse(id: string, name: string, input: string)

  /** One content block of a message. */
  datatype Content =
    | Text(text: string)
    | ToolUseBlock(use: ToolUse)
    | ToolResult(toolUseId: string, content: string, isError: bool)

  datatype Message = Message(role: Role, content: seq<Content>)

  /** A tool as advertised to the provider. */
  datatype ToolDefinition = ToolDefinition(name: string, description: string, inputSchema: string)

  /** The part of a provider response the dispatcher reads. */
  datatype Response = Response(content: seq<Content>)

  /** The thread is non-empty and its newest message was written by the user. */
  predicate LastIsUser(thread: seq<Message>) {
    |thread| > 0 && thread[|thread| - 1].role == User
  }

  /** The tool-use blocks of a reply, in order (dispatch.go:298-303). */
  function ToolUses(content: seq<Content>): (uses: seq<ToolUse>)
    ensures |uses| <= |content|
    ensures forall u :: u in uses <==> ToolUseBlock(u) in content
    ensures |uses| == 0 <==> forall k :: 0 <= k < |content| ==> !content[k].ToolUseBlock?
    decreases |content|
  {
    if |content| == 0 then []
    else
      var rest := ToolUses(content[1..]);
      assert forall k :: 1 <= k < |content| ==> content[k] == content[1..][k - 1];
      if content[0].ToolUseBlock? then [content[0].use] + rest else rest
  }

  /** A single block contributes its tool use if it is one, and nothing otherwise. */
  lemma ToolUsesOfOne(c: Content)
    ensures ToolUses([c]) == if c.ToolUseBlock? then [c.use] else []
  {
    assert [c][1..] == [];
  }

  /**
   Tool uses are collected block by block: the uses of a concatenation are
   the uses of each part, in order. With ToolUsesOfOne this fixes the order
   and the multiplicity of the result, one entry per tool-use block.
   */
  lemma {:induction false} ToolUsesAppend(a: seq<Content>, b: seq<Content>)
    ensures ToolUses(a + b) == ToolUses(a) + ToolUses(b)
    decreases |a|
  {
    if |a| > 0 {
      var head := if a[0].ToolUseBlock? then [a[0].use] else [];
      assert (a + b)[0] == a[0];
      assert (a + b)[1..] == a[1..] + b;
      ToolUsesUncons(a + b);
      ToolUsesUncons(a);
      ToolUsesAppend(a[1..], b);
      assert head + (ToolUses(a[1..]) + ToolUses(b)) == (head + ToolUses(a[1..])) + ToolUses(b);
    } else {
      assert a + b == b;
    }
  }

  /** Unfolds ToolUses by one block. */
  lemma ToolUsesUncons(c: seq<Content>)
    requires |c| > 0
    ensures ToolUses(c) == (if c[0].ToolUseBlock? then [c[0].use] else []) + ToolUses(c[1..])
  {
  }
}

=== FILE: permutations.dfy ===
/**
 Arrival orders of a concurrent fan-out: a permutation of the indices of a
 batch, and the batch re-read in that order.
 */
module Permutations {

  /** `order` lists every index below `n` exactly once. */
  predicate IsPermutation(order: seq<nat>, n: nat) {
    && |order| == n
    && (forall k :: 0 <= k < n ==> order[k] < n)
    && (forall j, k :: 0 <= j < k < n ==> order[j] != order[k])
    && (forall i :: 0 <= i < n ==> i in order)
  }

  /** `s` read in the order `order`. */
  function Permute<T>(s: seq<T>, order: seq<nat>): (r: seq<T>)
    requires IsPermutation(order, |s|)
    ensures |r| == |s|
    ensures forall k :: 0 <= k < |s| ==> r[k] == s[order[k]]
  {
    seq(|s|, k requires 0 <= k < |s| => s[order[k]])
  }

  /** Removing the position that holds the largest index leaves a permutation of one fewer. */
  lemma DropLargest(order: seq<nat>, n: nat, j: nat)
    requires n > 0 && IsPermutation(order, n) && j < n && order[j] == n - 1
    ensures IsPermutation(order[..j] + order[j + 1..], n - 1)
  {
    var o := order[..j] + order[j + 1..];
    assert forall k :: 0 <= k < n - 1 ==> o[k] == (if k < j then order[k] else order[k + 1]);
    forall i | 0 <= i < n - 1 ensures i in o {
      assert i in order;
      var k :| 0 <= k < |order| && order[k] == i;
      assert k != j;
      if k < j { assert o[k] == i; } else { assert o[k - 1] == i; }
    }
  }

  /** Removing position `j` of the reordered batch is reordering the batch without its last element. */
  lemma DropCommutes<T>(s: seq<T>, order: seq<nat>, j: nat)
    requires |s| > 0 && IsPermutation(order, |s|) && j < |s| && order[j] == |s| - 1
    requires IsPermutation(order[..j] + order[j + 1..], |s| - 1)
    ensures Permute(s[..|s| - 1], order[..j] + order[j + 1..]) == Permute(s, order)[..j] + Permute(s, order)[j + 1..]
  {
    var o := order[..j] + order[j + 1..];
    var p := Permute(s, order);
    var q := Permute(s[..|s| - 1], o);
    assert forall k :: 0 <= k < |s| - 1 ==> o[k] == (if k < j then order[k] else order[k + 1]);
    assert forall k :: 0 <= k < |s| - 1 ==> q[k] == (p[..j] + p[j + 1..])[k];
  }

  /** Taking one element out of a sequence takes it out of its multiset. */
  lemma RemoveAt<T>(p: seq<T>, j: nat)
    requires j < |p|
    ensures multiset(p) == multiset(p[..j] + p[j + 1..]) + multiset{p[j]}
  {
    assert p == p[..j] + [p[j]] + p[j + 1..];
  }

  /** One step of the induction: the last element comes out of both sides. */
  lemma DropLast<T>(s: seq<T>, order: seq<nat>, j: nat)
    requires |s| > 0 && IsPermutation(order, |s|) && j < |s| && order[j] == |s| - 1
    ensures IsPermutation(order[..j] + order[j + 1..], |s| - 1)
    ensures multiset(Permute(s, order)) == multiset(Permute(s[..|s| - 1], order[..j] + order[j + 1..])) + multiset{s[|s| - 1]}
  {
    DropLargest(order, |s|, j);
    DropCommutes(s, order, j);
    RemoveAt(Permute(s, order), j);
  }

  /** Reordering a batch keeps exactly the same elements, with the same multiplicities. */
  lemma {:induction false} PermutePreservesMultiset<T>(s: seq<T>, order: seq<nat>)
    requires IsPermutation(order, |s|)
    ensures multiset(Permute(s, order)) == multiset(s)
    decreases |s|
  {
    var n := |s|;
    if n > 0 {
      assert n - 1 in order;
      var j :| 0 <= j < |order| && order[j] == n - 1;
      DropLast(s, order, j);
      PermutePreservesMultiset(s[..n - 1], order[..j] + order[j + 1..]);
      assert s == s[..n - 1] + [s[n - 1]];
    }
  }
}

=== FILE: sandbox.dfy ===
/**
 The sandboxed path resolver (dispatch.go:91-105): a textual containment
 check applied to every path a tool receives before anything touches the
 filesystem, the database or a subprocess.
 */
module Sandbox {
  import opened Wrappers
  import opened Strings
  import opened Karma
  import opened FilePath

  /** The Go `(string, error)` pair the resolver returns. */
  datatype Resolution = Resolution(path: string, err: Option<Error>)

  /** The two rejections: an absolute path, or any occurrence of the substring "..". */
  predicate Rejected(path: string) {
    path != "/" && (IsAbs(path) || Contains(path, ".."))
  }

  /** dispatcher.sandbox(path) for the dispatcher's working directory `cwd`. */
  function Resolve(cwd: string, path: string): (r: Resolution)
    ensures r.err.Some? <==> Rejected(path)
    ensures r.err.Some? ==> r.path == path
    ensures r.err.None? ==> r.path == Join(cwd, if path == "/" then "." else path)
    ensures path != "/" && IsAbs(path) ==> r.err == Some(Plain("path must be relative: " + path))
    ensures !IsAbs(path) && Contains(path, "..") ==> r.err == Some(Plain("path must not contain '..': " + path))
    decreases if path == "/" then 1 else 0
  {
    if path == "/" then
      Resolve(cwd, ".")
    else if IsAbs(path) then
      Resolution(path, Some(Plain("path must be relative: " + path)))
    else if Contains(path, "..") then
      Resolution(path, Some(Plain("path must not contain '..': " + path)))
    else
      Resolution(Join(cwd, path), None)
  }

  /** "/" is an alias of the working directory: it resolves exactly as "." does. */
  lemma RootIsDot(cwd: string)
    ensures Resolve(cwd, "/") == Resolve(cwd, ".")
    ensures Resolve(cwd, "/") == Resolution(Join(cwd, "."), None)
  {
    assert !Contains(".", "..");
  }

  /** The ".." test is a substring test: a file name such as "a..b" is refused too. */
  lemma DotDotInsideNameRejected(cwd: string)
    ensures Resolve(cwd, "a..b") == Resolution("a..b", Some(Plain("path must not contain '..': a..b")))
  {
    assert "a..b"[..1] == "a";
    assert OccursAt("a..b", "..", 1);
    assert "path must not contain '..': " + "a..b" == "path must not contain '..': a..b";
  }

  /**
   What the resolver accepts stays inside the working directory, textually:
   the result is `cwd` itself or `cwd` + "/" + a relative path free of "..".
   */
  lemma {:induction false} AcceptedIsWithin(cwd: string, path: string)
    requires cwd != ""
    ensures Resolve(cwd, path).err.None? ==> Within(cwd, Resolve(cwd, path).path)
    ensures Resolve(cwd, path).err.None? && Resolve(cwd, path).path != cwd ==>
              var tail := Resolve(cwd, path).path[|DirPrefix(cwd)|..];
              !IsAbs(tail) && !Contains(tail, "..") && tail == path
  {
    var r := Resolve(cwd, path);
    if r.err.None? && path != "/" && path != "" && path != "." {
      assert r.path == DirPrefix(cwd) + path;
      assert r.path[..|DirPrefix(cwd)|] == DirPrefix(cwd);
      assert r.path[|DirPrefix(cwd)|..] == path;
    }
  }

  /** A path without two adjacent dots has no ".." in it. */
  lemma NoAdjacentDots(s: string)
    requires forall i :: 0 <= i < |s| - 1 ==> s[i] != '.' || s[i + 1] != '.'
    ensures !Contains(s, "..")
  {
    forall i | 0 <= i <= |s| - 2 ensures !OccursAt(s, "..", i) {
      assert s[i..i + 2][0] == s[i];
    }
    assert !Occurs(s, "..");
  }

  /** A path that climbs out of the working directory is refused. */
  lemma RejectsClimbing()
    ensures Resolve("/work", "../etc/passwd").err == Some(Plain("path must not contain '..': ../etc/passwd"))
  {
    assert OccursAt("../etc/passwd", "..", 0);
    assert "../etc/passwd"[..1] == ".";
    assert "path must not contain '..': " + "../etc/passwd" == "path must not contain '..': ../etc/passwd";
  }

  /** A nested relative path is joined onto the working directory. */
  lemma JoinsNested()
    ensures Resolve("/work", "a/b.txt") == Resolution("/work/a/b.txt", None)
  {
    var s := "a/b.txt";
    assert s[..1] == "a";
    NoAdjacentDots(s);
    assert !Contains(s, "..");
    assert DirPrefix("/work") == "/work/";
    assert "/work/" + s == "/work/a/b.txt";
  }

}

=== FILE: strings.dfy ===
/**
 The subset of Go's `strings` package the dispatcher relies on:
 prefix and suffix tests, substring search and whitespace trimming.
 Strings are sequences of Unicode code points.
 */
module Strings {

  /** strings.HasPrefix */
  predicate HasPrefix(s: string, prefix: string) {
    |prefix| <= |s| && s[..|prefix|] == prefix
  }

  /** strings.HasSuffix */
  predicate HasSuffix(s: string, suffix: string) {
    |suffix| <= |s| && s[|s| - |suffix|..] == suffix
  }

  /** Taking `n` elements after dropping `i` is the slice from `i` to `i + n`. */
  lemma TakeAfterDrop<T>(s: seq<T>, i: nat, n: nat)
    requires i + n <= |s|
    ensures s[i..][..n] == s[i..i + n]
  {
  }

  /** A non-empty suffix is its first element followed by the next suffix. */
  lemma DropUncons<T>(s: seq<T>, i: nat)
    requires i < |s|
    ensures s[i..] == [s[i]] + s[i + 1..]
  {
  }

  /** Concatenation is associative. */
  lemma ConcatAssoc<T>(a: seq<T>, b: seq<T>, c: seq<T>)
    ensures a + (b + c) == (a + b) + c
  {
  }

  /** `t` occurs in `s` starting at offset `i`. */
  ghost predicate OccursAt(s: string, t: string, i: int) {
    0 <= i <= |s| - |t| && s[i..i + |t|] == t
  }

  /** `t` occurs somewhere in `s`. */
  ghost predicate Occurs(s: string, t: string) {
    exists i :: OccursAt(s, t, i)
  }

  /** Dropping the first character keeps every occurrence that does not start at offset 0. */
  lemma ShiftOccurs(s: string, t: string)
    requires 0 < |s| && |t| <= |s| && s[..|t|] != t
    ensures Occurs(s, t) <==> Occurs(s[1..], t)
  {
    if Occurs(s, t) {
      var i :| OccursAt(s, t, i);
      assert i != 0;
      assert s[1..][i - 1..i - 1 + |t|] == s[i..i + |t|];
      assert OccursAt(s[1..], t, i - 1);
    }
    if Occurs(s[1..], t) {
      var i :| OccursAt(s[1..], t, i);
      assert s[1..][i..i + |t|] == s[i + 1..i + 1 + |t|];
      assert OccursAt(s, t, i + 1);
    }
  }

  /** strings.Contains: a plain substring search, not a path-segment test. */
  function Contains(s: string, t: string): (r: bool)
    ensures r <==> Occurs(s, t)
    decreases |s|
  {
    if |t| > |s| then
      assert forall i :: !OccursAt(s, t, i);
      false
    else if s[..|t|] == t then
      assert OccursAt(s, t, 0);
      true
    else
      ShiftOccurs(s, t);
      Contains(s[1..], t)
  }

  /** A string contains every string it is built around. */
  lemma ContainsInfix(a: string, t: string, b: string)
    ensures Contains(a + t + b, t)
  {
    var s := a + t + b;
    assert s[|a|..|a| + |t|] == t;
    assert OccursAt(s, t, |a|);
  }

  /** unicode.IsSpace, the predicate strings.TrimSpace trims by. */
  predicate IsSpace(c: char) {
    || c == ' ' || c == '\t' || c == '\n' || c == '\r'
    || c == '\U{000B}' || c == '\U{000C}'
    || c == '\U{0085}' || c == '\U{00A0}' || c == '\U{1680}'
    || ('\U{2000}' <= c <= '\U{200A}')
    || c == '\U{2028}' || c == '\U{2029}' || c == '\U{202F}'
    || c == '\U{205F}' || c == '\U{3000}'
  }

  /** Drops leading white space. */
  function TrimLeft(s: string): (r: string)
    decreases |s|
  {
    if |s| > 0 && IsSpace(s[0]) then TrimLeft(s[1..]) else s
  }

  /** TrimLeft keeps a suffix of `s`, drops only white space and stops at the first other character. */
  lemma {:induction false} TrimLeftTrims(s: string)
    ensures HasSuffix(s, TrimLeft(s))
    ensures forall k :: 0 <= k < |s| - |TrimLeft(s)| ==> IsSpace(s[k])
    ensures TrimLeft(s) == [] || !IsSpace(TrimLeft(s)[0])
    decreases |s|
  {
    if |s| > 0 && IsSpace(s[0]) {
      TrimLeftTrims(s[1..]);
      assert forall k :: 1 <= k < |s| ==> s[1..][k - 1] == s[k];
    }
  }

  /** Drops trailing white space. */
  function TrimRight(s: string): (r: string)
    decreases |s|
  {
    if |s| > 0 && IsSpace(s[|s| - 1]) then TrimRight(s[..|s| - 1]) else s
  }

  /** TrimRight keeps a prefix of `s`, drops only white space and stops at the last other character. */
  lemma {:induction false} TrimRightTrims(s: string)
    ensures HasPrefix(s, TrimRight(s))
    ensures forall k :: |TrimRight(s)| <= k < |s| ==> IsSpace(s[k])
    ensures TrimRight(s) == [] || !IsSpace(TrimRight(s)[|TrimRight(s)| - 1])
    decreases |s|
  {
    if |s| > 0 && IsSpace(s[|s| - 1]) {
      TrimRightTrims(s[..|s| - 1]);
      assert forall k :: 0 <= k < |s| - 1 ==> s[..|s| - 1][k] == s[k];
    }
  }

  /** `s` is `r` at offset `i` with nothing but white space before and after it. */
  ghost predicate PaddedAt(s: string, r: string, i: int) {
    && OccursAt(s, r, i)
    && (forall k :: 0 <= k < i ==> IsSpace(s[k]))
    && (forall k :: i + |r| <= k < |s| ==> IsSpace(s[k]))
  }

  /** strings.TrimSpace: leading and trailing white space removed. */
  function TrimSpace(s: string): (r: string)
    ensures |r| <= |s|
  {
    TrimLeftTrims(s);
    TrimRightTrims(TrimLeft(s));
    TrimRight(TrimLeft(s))
  }

  /** `r` neither starts nor ends with white space. */
  predicate Unpadded(r: string) {
    r == [] || (!IsSpace(r[0]) && !IsSpace(r[|r| - 1]))
  }

  /** What TrimSpace returns neither starts nor ends with white space. */
  lemma TrimSpaceEnds(s: string)
    ensures Unpadded(TrimSpace(s))
  {
    var left := TrimLeft(s);
    var r := TrimRight(left);
    TrimLeftTrims(s);
    TrimRightTrims(left);
    assert r == [] || r[0] == left[0];
  }

  /** Anything TrimSpace produced is unpadded. */
  lemma TrimmedIsUnpadded(t: string, s: string)
    requires t == TrimSpace(s)
    ensures Unpadded(t)
  {
    TrimSpaceEnds(s);
  }

  /**
   TrimSpace keeps the infix of `s` that neither starts nor ends with white
   space, everything around it being white space; it is empty exactly when
   `s` is all white space.
   */
  lemma TrimSpaceTrims(s: string)
    ensures Unpadded(TrimSpace(s))
    ensures exists i :: PaddedAt(s, TrimSpace(s), i)
    ensures TrimSpace(s) == [] <==> forall k :: 0 <= k < |s| ==> IsSpace(s[k])
  {
    TrimSpaceEnds(s);
    var left := TrimLeft(s);
    var r := TrimRight(left);
    TrimLeftTrims(s);
    TrimRightTrims(left);
    var i := |s| - |left|;
    assert left == s[i..];
    TakeAfterDrop(s, i, |r|);
    assert forall k :: i + |r| <= k < |s| ==> s[k] == left[k - i];
    assert PaddedAt(s, r, i);
    if r != [] {
      assert !IsSpace(s[i]);
    }
  }
}

=== FILE: tools.dfy ===
/**
 The tool catalogue (dispatch_tools.go): the nine registered handlers, the
 guard that turns their errors into values, and the small pure rules inside
 them. Every handler resolves its paths through the sandbox before it makes
 any external call; the calls themselves are answered by a `World`.
 */
module Tools {
  import opened Wrappers
  import opened Strings
  import opened Karma
  import opened Values
  import opened Messages
  import opened FilePath
  import opened Sandbox
  import opened Host
  import opened Decode
  import opened Dispatch

  /** ListFilesArguments, TreeFilesArguments, ReadFileArguments and RemoveFileArguments share this shape. */
  datatype PathArguments = PathArguments(path: string)
  datatype WriteFileArguments = WriteFileArguments(path: string, contents: string, append: bool)
  datatype MoveFileArguments = MoveFileArguments(from: string, to: string)
  /** SQLExecArguments and SQLQueryArguments share this shape. */
  datatype SqlArguments = SqlArguments(database: string, query: string)
  datatype PythonArguments = PythonArguments(scriptName: string, code: string)

  /**
   encoding/json and jsonschema as oracles: a decoder per argument shape,
   the generic unmarshaller `tree` output goes through, and the schema
   jsonschema.Reflect derives for a Go argument type, by type name.
   */
  datatype Codec = Codec(
    decodePath: string -> Result<PathArguments, Error>,
    decodeWrite: string -> Result<WriteFileArguments, Error>,
    decodeMove: string -> Result<MoveFileArguments, Error>,
    decodeSql: string -> Result<SqlArguments, Error>,
    decodePython: string -> Result<PythonArguments, Error>,
    unmarshal: string -> Result<Value, Error>,
    reflect: string -> string)

  /** A handler's Go result together with the external calls it made, in order. */
  datatype Run = Run(out: Outcome, effects: seq<Effect>)

  /** A rejected path is returned as the handler's error before anything else happens. */
  ghost predicate SandboxFirst(res: Resolution, r: Run) {
    res.err.Some? ==> r == Run(Outcome(Nil, res.err), [])
  }

  /** Every target the run touched lies within the working directory. */
  ghost predicate Confined(cwd: string, r: Run) {
    forall k, p :: 0 <= k < |r.effects| && p in Targets(r.effects[k]) ==> Within(cwd, p)
  }

  /** The error a rejected path turns into. */
  function Rejection(res: Resolution): Run {
    Run(Outcome(Nil, res.err), [])
  }

  // ---------------------------------------------------------------- fs_list

  /** The JSON object listFiles emits per entry; `dir` and `size` are omitempty. */
  function FileValue(name: string, isDir: bool, size: int): (v: Value)
    ensures v.Object? && "name" in v.fields && v.fields["name"] == Str(name)
    ensures "dir" in v.fields <==> isDir
    ensures isDir ==> v.fields["dir"] == Bool(true)
    ensures "size" in v.fields <==> size != 0
    ensures size != 0 ==> v.fields["size"] == Int(size)
    ensures v.fields.Keys <= {"name", "dir", "size"}
  {
    var base := map["name" := Str(name)];
    var withDir := if isDir then base["dir" := Bool(true)] else base;
    Object(if size != 0 then withDir["size" := Int(size)] else withDir)
  }

  /** The size listFiles reports: 0 for a directory, the file info's size otherwise. */
  function SizeOf(e: DirEntry): int {
    if e.isDir then 0 else match e.info case Success(n) => n case Failure(_) => 0
  }

  /** A file (not a directory) whose info cannot be read. */
  predicate Unreadable(e: DirEntry) {
    !e.isDir && e.info.Failure?
  }

  /** The listing loop (dispatch_tools.go:123-139): fails on the first file whose info cannot be read. */
  function Listing(entries: seq<DirEntry>): (r: Result<seq<Value>, Error>)
    ensures r.Failure? <==> exists k :: 0 <= k < |entries| && Unreadable(entries[k])
    ensures r.Success? ==> |r.value| == |entries|
    ensures r.Success? ==> forall k :: 0 <= k < |entries| ==>
              r.value[k] == FileValue(entries[k].name, entries[k].isDir, SizeOf(entries[k]))
    decreases |entries|
  {
    if |entries| == 0 then Success([])
    else
      var e := entries[0];
      assert forall k :: 1 <= k < |entries| ==> entries[k] == entries[1..][k - 1];
      if Unreadable(e) then Failure(e.info.error)
      else
        match Listing(entries[1..])
        case Failure(err) => Failure(err)
        case Success(rest) => Success([FileValue(e.name, e.isDir, SizeOf(e))] + rest)
  }

  /** listFiles (dispatch_tools.go:104-142). */
  function ListFiles(cwd: string, w: World, args: PathArguments): (r: Run)
    ensures SandboxFirst(Resolve(cwd, args.path), r)
    ensures Resolve(cwd, args.path).err.None? ==> r.effects == [ReadDir(Resolve(cwd, args.path).path)]
    ensures Resolve(cwd, args.path).err.None? ==>
              var entries := w.readDir(Resolve(cwd, args.path).path);
              && (r.out.err.None? <==> entries.Success? && Listing(entries.value).Success?)
              && (r.out.err.None? ==> r.out.value == List(Listing(entries.value).value))
  {
    var res := Resolve(cwd, args.path);
    if res.err.Some? then Rejection(res)
    else
      var effects := [ReadDir(res.path)];
      match w.readDir(res.path)
      case Failure(e) => Run(Err(Format(e, "read dir: " + res.path)), effects)
      case Success(entries) =>
        match Listing(entries)
        case Failure(e) => Run(Err(Format(e, "get file info")), effects)
        case Success(files) => Run(Ok(List(files)), effects)
  }

  // ---------------------------------------------------------------- fs_tree

  /** treeFiles (dispatch_tools.go:247-267): runs `tree -J` on the path and parses its output. */
  function TreeFiles(cwd: string, w: World, codec: Codec, args: PathArguments): (r: Run)
    ensures SandboxFirst(Resolve(cwd, args.path), r)
    ensures Resolve(cwd, args.path).err.None? ==> r.effects == [RunTree(Resolve(cwd, args.path).path)]
    ensures Resolve(cwd, args.path).err.None? ==>
              var stdout := w.tree(Resolve(cwd, args.path).path);
              && (r.out.err.None? <==> stdout.Success? && codec.unmarshal(stdout.value).Success?)
              && (r.out.err.None? ==> r.out.value == codec.unmarshal(stdout.value).value)
  {
    var res := Resolve(cwd, args.path);
    if res.err.Some? then Rejection(res)
    else
      var effects := [RunTree(res.path)];
      match w.tree(res.path)
      case Failure(e) => Run(Err(Format(e, "run tree")), effects)
      case Success(stdout) =>
        match codec.unmarshal(stdout)
        case Failure(e) => Run(Err(Format(e, "unmarshal tree")), effects)
        case Success(v) => Run(Ok(v), effects)
  }

  // ---------------------------------------------------------------- fs_read

  /** readFile (dispatch_tools.go:148-160): the read error is returned as it is. */
  function ReadFile(cwd: string, w: World, args: PathArguments): (r: Run)
    ensures SandboxFirst(Resolve(cwd, args.path), r)
    ensures Resolve(cwd, args.path).err.None? ==>
              var path := Resolve(cwd, args.path).path;
              && r.effects == [ReadContents(path)]
              && (w.readFile(path).Failure? ==> r.out == Outcome(Nil, Some(w.readFile(path).error)))
              && (w.readFile(path).Success? ==> r.out == Outcome(Str(w.readFile(path).value), None))
  {
    var res := Resolve(cwd, args.path);
    if res.err.Some? then Rejection(res)
    else
      match w.readFile(res.path)
      case Failure(e) => Run(Err(e), [ReadContents(res.path)])
      case Success(contents) => Run(Ok(Str(contents)), [ReadContents(res.path)])
  }

  // ---------------------------------------------------------------- fs_write

  /** The Linux values of the os.OpenFile flags writeFile combines. */
  const O_WRONLY: bv32 := 0x1
  const O_ACCMODE: bv32 := 0x3
  const O_CREATE: bv32 := 0x40
  const O_TRUNC: bv32 := 0x200
  const O_APPEND: bv32 := 0x400

  /**
   The flags writeFile opens with (dispatch_tools.go:179-184): always create
   and write-only, then append when asked to and truncate otherwise.
   */
  function OpenFlags(append: bool): (flags: bv32)
    ensures flags & O_CREATE != 0
    ensures flags & O_ACCMODE == O_WRONLY
    ensures (flags & O_APPEND != 0) <==> append
    ensures (flags & O_TRUNC != 0) <==> !append
    ensures flags & !(O_WRONLY | O_CREATE | O_TRUNC | O_APPEND) == 0
  {
    var flags := O_CREATE | O_WRONLY;
    if append then flags | O_APPEND else flags | O_TRUNC
  }

  /**
   writeFile (dispatch_tools.go:168-199): create the parent directory, open
   with OpenFlags, write the contents; `true` when all three succeed.
   */
  function WriteFile(cwd: string, w: World, args: WriteFileArguments): (r: Run)
    ensures SandboxFirst(Resolve(cwd, args.path), r)
    ensures Resolve(cwd, args.path).err.None? ==>
              var path := Resolve(cwd, args.path).path;
              && |r.effects| == (if w.mkdirAll(Dir(path)).Some? then 1
                                 else if w.openFile(path, OpenFlags(args.append)).Some? then 2 else 3)
              && r.effects[0] == MkdirAll(Dir(path))
              && (|r.effects| >= 2 ==> r.effects[1] == OpenFile(path, OpenFlags(args.append)))
              && (|r.effects| == 3 ==> r.effects[2] == WriteString(path, args.contents))
              && (r.out.err.None? <==> w.mkdirAll(Dir(path)).None? && w.openFile(path, OpenFlags(args.append)).None?
                                       && w.writeString(path, args.contents).None?)
    ensures r.out.err.None? ==> r.out.value == Bool(true)
  {
    var res := Resolve(cwd, args.path);
    if res.err.Some? then Rejection(res)
    else
      var path := res.path;
      var dir := Dir(path);
      var flags := OpenFlags(args.append);
      match w.mkdirAll(dir)
      case Some(e) => Run(Err(Format(e, "create directory: " + dir)), [MkdirAll(dir)])
      case None =>
        match w.openFile(path, flags)
        case Some(e) => Run(Err(Format(e, "open file: " + path)), [MkdirAll(dir), OpenFile(path, flags)])
        case None =>
          var effects := [MkdirAll(dir), OpenFile(path, flags), WriteString(path, args.contents)];
          match w.writeString(path, args.contents)
          case Some(e) => Run(Err(Format(e, "write file: " + path)), effects)
          case None => Run(Ok(Bool(true)), effects)
  }

  // ---------------------------------------------------------------- fs_move

  /** moveFile (dispatch_tools.go:206-223): both ends go through the sandbox, `from` first. */
  function MoveFile(cwd: string, w: World, args: MoveFileArguments): (r: Run)
    ensures SandboxFirst(Resolve(cwd, args.from), r)
    ensures Resolve(cwd, args.from).err.None? ==> SandboxFirst(Resolve(cwd, args.to), r)
    ensures Resolve(cwd, args.from).err.None? && Resolve(cwd, args.to).err.None? ==>
              var from, to := Resolve(cwd, args.from).path, Resolve(cwd, args.to).path;
              && r.effects == [Rename(from, to)]
              && (r.out.err.None? <==> w.rename(from, to).None?)
    ensures r.out.err.None? ==> r.out.value == Bool(true)
  {
    var from := Resolve(cwd, args.from);
    if from.err.Some? then Rejection(from)
    else
      var to := Resolve(cwd, args.to);
      if to.err.Some? then Rejection(to)
      else
        match w.rename(from.path, to.path)
        case Some(e) => Run(Err(Format(e, "rename file")), [Rename(from.path, to.path)])
        case None => Run(Ok(Bool(true)), [Rename(from.path, to.path)])
  }

  // ---------------------------------------------------------------- fs_remove

  /** removeFile (dispatch_tools.go:229-241). */
  function RemoveFile(cwd: string, w: World, args: PathArguments): (r: Run)
    ensures SandboxFirst(Resolve(cwd, args.path), r)
    ensures Resolve(cwd, args.path).err.None? ==>
              var path := Resolve(cwd, args.path).path;
              && r.effects == [Remove(path)]
              && (r.out.err.None? <==> w.remove(path).None?)
    ensures r.out.err.None? ==> r.out.value == Bool(true)
  {
    var res := Resolve(cwd, args.path);
    if res.err.Some? then Rejection(res)
    else
      match w.remove(res.path)
      case Some(e) => Run(Err(Format(e, "remove file")), [Remove(res.path)])
      case None => Run(Ok(Bool(true)), [Remove(res.path)])
  }

  // ---------------------------------------------------------------- sql_exec

  /**
   The reply sqlExec builds (dispatch_tools.go:296-308): both counters are
   always present, and an `_error` key appears exactly for a counter whose
   call failed.
   */
  function ExecReply(x: ExecResult): (m: map<string, Value>)
    ensures "last_insert_id" in m && m["last_insert_id"] == Int(x.lastInsertId)
    ensures "rows_affected" in m && m["rows_affected"] == Int(x.rowsAffected)
    ensures "last_insert_id_error" in m <==> x.lastInsertIdErr.Some?
    ensures "rows_affected_error" in m <==> x.rowsAffectedErr.Some?
    ensures x.lastInsertIdErr.Some? ==> m["last_insert_id_error"] == Str(ErrorText(x.lastInsertIdErr.value))
    ensures x.rowsAffectedErr.Some? ==> m["rows_affected_error"] == Str(ErrorText(x.rowsAffectedErr.value))
    ensures m.Keys <= {"last_insert_id", "rows_affected", "last_insert_id_error", "rows_affected_error"}
  {
    var m1 := map["last_insert_id" := Int(x.lastInsertId)];
    var m2 := if x.lastInsertIdErr.Some? then m1["last_insert_id_error" := Str(ErrorText(x.lastInsertIdErr.value))] else m1;
    var m3 := m2["rows_affected" := Int(x.rowsAffected)];
    if x.rowsAffectedErr.Some? then m3["rows_affected_error" := Str(ErrorText(x.rowsAffectedErr.value))] else m3
  }

  /** sqlExec (dispatch_tools.go:278-309). */
  function SqlExecute(cwd: string, w: World, args: SqlArguments): (r: Run)
    ensures SandboxFirst(Resolve(cwd, args.database), r)
    ensures Resolve(cwd, args.database).err.None? ==>
              var path := Resolve(cwd, args.database).path;
              && |r.effects| == (if w.sqlOpen(path).Some? then 1 else 2)
              && r.effects[0] == SqlOpen(path)
              && (|r.effects| == 2 ==> r.effects[1] == SqlExec(path, args.query))
              && (forall k :: 0 <= k < |r.effects| ==> Targets(r.effects[k]) == [path])
              && (r.out.err.None? <==> w.sqlOpen(path).None? && w.sqlExec(path, args.query).Success?)
              && (r.out.err.None? ==> r.out.value == Object(ExecReply(w.sqlExec(path, args.query).value)))
  {
    var res := Resolve(cwd, args.database);
    if res.err.Some? then Rejection(res)
    else
      match w.sqlOpen(res.path)
      case Some(e) => Run(Err(Format(e, "open database")), [SqlOpen(res.path)])
      case None =>
        var effects := [SqlOpen(res.path), SqlExec(res.path, args.query)];
        match w.sqlExec(res.path, args.query)
        case Failure(e) => Run(Err(Format(e, "execute query")), effects)
        case Success(x) => Run(Ok(Object(ExecReply(x))), effects)
  }

  // ---------------------------------------------------------------- sql_query

  /** The value scanned into column `i`, nil when the scan filled fewer. */
  function Column(values: seq<Value>, i: nat): Value {
    if i < |values| then values[i] else Nil
  }

  /** One row as a map from column name to value; a repeated column name keeps its last value. */
  function RowMap(columns: seq<string>, values: seq<Value>): (m: map<string, Value>)
    ensures m.Keys == set c | c in columns
    decreases |columns|
  {
    if |columns| == 0 then map[]
    else
      var n := |columns| - 1;
      var m := RowMap(columns[..n], values)[columns[n] := Column(values, n)];
      assert forall c :: c in columns <==> c in columns[..n] || c == columns[n];
      m
  }

  /** The column that no later column shares its name with is the one whose value the row keeps. */
  lemma {:induction false} RowMapLastWins(columns: seq<string>, values: seq<Value>, i: nat)
    requires i < |columns| && columns[i] !in columns[i + 1..]
    ensures columns[i] in RowMap(columns, values) && RowMap(columns, values)[columns[i]] == Column(values, i)
    decreases |columns|
  {
    var n := |columns| - 1;
    if i < n {
      var prefix := columns[..n];
      assert columns[n] in columns[i + 1..];
      assert prefix[i + 1..] == columns[i + 1..n];
      RowMapLastWins(prefix, values, i);
    }
  }

  /** The rows loop (dispatch_tools.go:347-367): fails on the first row that does not scan. */
  function RowMaps(columns: seq<string>, scans: seq<Result<seq<Value>, Error>>): (r: Result<seq<Value>, Error>)
    ensures r.Failure? <==> exists k :: 0 <= k < |scans| && scans[k].Failure?
    ensures r.Success? ==> |r.value| == |scans|
    ensures r.Success? ==> forall k :: 0 <= k < |scans| ==> r.value[k] == Object(RowMap(columns, scans[k].value))
    decreases |scans|
  {
    if |scans| == 0 then Success([])
    else
      assert forall k :: 1 <= k < |scans| ==> scans[k] == scans[1..][k - 1];
      match scans[0]
      case Failure(e) => Failure(e)
      case Success(values) =>
        match RowMaps(columns, scans[1..])
        case Failure(e) => Failure(e)
        case Success(rest) => Success([Object(RowMap(columns, values))] + rest)
  }

  /** sqlQuery (dispatch_tools.go:320-370). */
  function SqlQueryRows(cwd: string, w: World, args: SqlArguments): (r: Run)
    ensures SandboxFirst(Resolve(cwd, args.database), r)
    ensures Resolve(cwd, args.database).err.None? ==>
              var path := Resolve(cwd, args.database).path;
              && |r.effects| == (if w.sqlOpen(path).Some? then 1 else 2)
              && r.effects[0] == SqlOpen(path)
              && (|r.effects| == 2 ==> r.effects[1] == SqlQuery(path, args.query))
              && (forall k :: 0 <= k < |r.effects| ==> Targets(r.effects[k]) == [path])
    ensures Resolve(cwd, args.database).err.None? ==>
              var path := Resolve(cwd, args.database).path;
              var rows := w.sqlQuery(path, args.query);
              && (r.out.err.None? <==>
                    && w.sqlOpen(path).None? && rows.Success? && rows.value.columns.Success?
                    && RowMaps(rows.value.columns.value, rows.value.scans).Success?)
              && (r.out.err.None? ==>
                    r.out.value == List(RowMaps(rows.value.columns.value, rows.value.scans).value))
  {
    var res := Resolve(cwd, args.database);
    if res.err.Some? then Rejection(res)
    else
      match w.sqlOpen(res.path)
      case Some(e) => Run(Err(Format(e, "open database")), [SqlOpen(res.path)])
      case None =>
        var effects := [SqlOpen(res.path), SqlQuery(res.path, args.query)];
        match w.sqlQuery(res.path, args.query)
        case Failure(e) => Run(Err(Format(e, "execute query")), effects)
        case Success(rows) =>
          match rows.columns
          case Failure(e) => Run(Err(Format(e, "get columns")), effects)
          case Success(columns) =>
            match RowMaps(columns, rows.scans)
            case Failure(e) => Run(Err(Format(e, "scan row")), effects)
            case Success(maps) => Run(Ok(List(maps)), effects)
  }

  // ---------------------------------------------------------------- python_execute

  /** The script path rule (dispatch_tools.go:387-389): ".py" is appended only when missing. */
  function WithPySuffix(path: string): (r: string)
    ensures HasSuffix(r, ".py")
    ensures HasSuffix(path, ".py") ==> r == path
    ensures !HasSuffix(path, ".py") ==> r == path + ".py"
  {
    if HasSuffix(path, ".py") then path else path + ".py"
  }

  /** Adding the suffix twice is adding it once. */
  lemma WithPySuffixIdempotent(path: string)
    ensures WithPySuffix(WithPySuffix(path)) == WithPySuffix(path)
  {
  }

  /**
   What python returns after a successful run (dispatch_tools.go:403-410):
   "ok" when the script printed nothing at all, otherwise both streams.
   */
  function ShapeOutput(stdout: string, stderr: string): (v: Value)
    ensures v == Str("ok") <==> stdout == "" && stderr == ""
    ensures v != Str("ok") ==>
              && v.Object? && v.fields.Keys == {"stdout", "stderr"}
              && v.fields["stdout"] == Str(stdout) && v.fields["stderr"] == Str(stderr)
  {
    if |stdout| == 0 && |stderr| == 0 then Str("ok")
    else Object(map["stdout" := Str(stdout), "stderr" := Str(stderr)])
  }

  /** Write the script, run it with python3, shape its output. */
  function RunScript(path: string, w: World, code: string): (r: Run)
    ensures |r.effects| == (if w.writeScript(path, code).Some? then 1 else 2)
    ensures r.effects[0] == WriteScript(path, code)
    ensures |r.effects| == 2 ==> r.effects[1] == RunPython(path)
    ensures forall k :: 0 <= k < |r.effects| ==> Targets(r.effects[k]) == [path]
    ensures r.out.err.None? <==> w.writeScript(path, code).None? && w.python(path).Success?
    ensures r.out.err.None? ==> r.out.value == ShapeOutput(w.python(path).value.0, w.python(path).value.1)
  {
    match w.writeScript(path, code)
    case Some(e) => Run(Err(Format(e, "write python code")), [WriteScript(path, code)])
    case None =>
      var effects := [WriteScript(path, code), RunPython(path)];
      match w.python(path)
      case Failure(e) => Run(Err(Format(e, "run python code")), effects)
      case Success(streams) => Run(Ok(ShapeOutput(streams.0, streams.1)), effects)
  }

  /**
   python as written (dispatch_tools.go:381-411): resolve the script name,
   then append ".py". A name that resolves to the working directory itself
   ("", "." or "/") becomes `<cwd>.py`, a sibling of the working directory.
   */
  function PythonAsWritten(cwd: string, w: World, args: PythonArguments): (r: Run)
    ensures SandboxFirst(Resolve(cwd, args.scriptName), r)
    ensures Resolve(cwd, args.scriptName).err.None? ==>
              r == RunScript(WithPySuffix(Resolve(cwd, args.scriptName).path), w, args.code)
  {
    var res := Resolve(cwd, args.scriptName);
    if res.err.Some? then Rejection(res)
    else RunScript(WithPySuffix(res.path), w, args.code)
  }

  /** The escape: with script name "" the script is written and run outside the working directory. */
  lemma PythonAsWrittenEscapes(w: World, code: string)
    ensures var r := PythonAsWritten("/work", w, PythonArguments("", code));
            && r.effects[0] == WriteScript("/work.py", code)
            && !Within("/work", "/work.py")
  {
    assert !Contains("", "..");
    assert Resolve("/work", "").path == "/work";
    assert !HasSuffix("/work", ".py");
    assert "/work" + ".py" == "/work.py";
    assert WithPySuffix(Resolve("/work", "").path) == "/work.py";
    assert !HasPrefix("/work.py", "/work/") by {
      assert "/work.py"[..6] != "/work/" by { assert "/work.py"[5] == '.'; }
    }
  }

  /** The script a name that passed the sandbox denotes: ".py" goes on the name, before it is joined. */
  function ScriptPath(cwd: string, name: string): (path: string)
    requires !Rejected(name)
    ensures HasSuffix(path, ".py")
    ensures cwd != "" ==> Within(cwd, path) && path != cwd
  {
    var n := WithPySuffix(if name == "/" then "." else name);
    assert n != "" && n != ".";
    Join(cwd, n)
  }

  /**
   python with the suffix applied to the script name rather than to the
   resolved path, so the script always stays inside the working directory.
   The catalogue registers PythonAsWritten, as the source does; this is the
   version the escape evidently should have been.
   */
  function Python(cwd: string, w: World, args: PythonArguments): (r: Run)
    ensures SandboxFirst(Resolve(cwd, args.scriptName), r)
    ensures Resolve(cwd, args.scriptName).err.None? ==>
              r == RunScript(ScriptPath(cwd, args.scriptName), w, args.code)
  {
    var res := Resolve(cwd, args.scriptName);
    if res.err.Some? then Rejection(res)
    else RunScript(ScriptPath(cwd, args.scriptName), w, args.code)
  }

  /** Behind a separator, a name ends in ".py" exactly when the joined path does. */
  lemma PySuffixThroughSlash(prefix: string, name: string)
    requires HasSuffix(prefix, "/") && name != ""
    ensures HasSuffix(prefix + name, ".py") <==> HasSuffix(name, ".py")
  {
    var s := prefix + name;
    if |name| >= 3 {
      assert s[|s| - 3..] == name[|name| - 3..];
    } else {
      assert s[|s| - |name| - 1] == '/';
      if |s| >= 3 { assert s[|s| - 3..][3 - |name| - 1] == '/'; }
    }
  }

  /** For a name other than "", "." and "/", suffixing before or after the join gives the same path. */
  lemma ScriptPathAgrees(cwd: string, name: string)
    requires cwd != "" && name != "" && name != "." && name != "/" && !Rejected(name)
    ensures ScriptPath(cwd, name) == WithPySuffix(Resolve(cwd, name).path)
  {
    var dir := DirPrefix(cwd);
    assert Resolve(cwd, name).path == dir + name;
    PySuffixThroughSlash(dir, name);
    if !HasSuffix(name, ".py") {
      assert dir + (name + ".py") == (dir + name) + ".py";
    }
  }

  /** For every script name other than the three that escape, the corrected version is PythonAsWritten. */
  lemma PythonAgreesInside(cwd: string, w: World, args: PythonArguments)
    requires cwd != ""
    requires args.scriptName != "" && args.scriptName != "." && args.scriptName != "/"
    ensures Python(cwd, w, args) == PythonAsWritten(cwd, w, args)
  {
    if Resolve(cwd, args.scriptName).err.None? {
      ScriptPathAgrees(cwd, args.scriptName);
    }
  }

  // ---------------------------------------------------------------- confinement

  /** Every target a handler touches lies within the working directory. */
  lemma ListFilesStaysInside(cwd: string, w: World, p: PathArguments)
    requires cwd != ""
    ensures Confined(cwd, ListFiles(cwd, w, p))
  {
    AcceptedIsWithin(cwd, p.path);
  }

  lemma TreeFilesStaysInside(cwd: string, w: World, codec: Codec, p: PathArguments)
    requires cwd != ""
    ensures Confined(cwd, TreeFiles(cwd, w, codec, p))
  {
    AcceptedIsWithin(cwd, p.path);
  }

  lemma ReadFileStaysInside(cwd: string, w: World, p: PathArguments)
    requires cwd != ""
    ensures Confined(cwd, ReadFile(cwd, w, p))
  {
    AcceptedIsWithin(cwd, p.path);
  }

  lemma WriteFileStaysInside(cwd: string, w: World, a: WriteFileArguments)
    requires cwd != ""
    ensures Confined(cwd, WriteFile(cwd, w, a))
  {
    var r := WriteFile(cwd, w, a);
    var res := Resolve(cwd, a.path);
    if res.err.None? {
      AcceptedIsWithin(cwd, a.path);
      forall k, q | 0 <= k < |r.effects| && q in Targets(r.effects[k]) ensures Within(cwd, q) {
        assert k == 0 || q == res.path;
      }
    }
  }

  /**
   The directory fs_write creates is the working directory or lies below it,
   except for a name that resolves to the working directory itself ("", "."
   or "/"), where it is the working directory's parent.
   */
  lemma WriteFileMkdirInside(cwd: string, w: World, a: WriteFileArguments)
    requires CleanDir(cwd)
    ensures Resolve(cwd, a.path).err.None? ==>
              && WriteFile(cwd, w, a).effects[0] == MkdirAll(Dir(Resolve(cwd, a.path).path))
              && (Resolve(cwd, a.path).path != cwd ==> Within(cwd, Dir(Resolve(cwd, a.path).path)))
  {
    var res := Resolve(cwd, a.path);
    if res.err.None? && res.path != cwd {
      AcceptedIsWithin(cwd, a.path);
      assert res.path == DirPrefix(cwd) + a.path;
      DirStaysWithin(cwd, res.path);
    }
  }

  lemma MoveFileStaysInside(cwd: string, w: World, a: MoveFileArguments)
    requires cwd != ""
    ensures Confined(cwd, MoveFile(cwd, w, a))
  {
    var from, to := Resolve(cwd, a.from), Resolve(cwd, a.to);
    if from.err.None? && to.err.None? {
      AcceptedIsWithin(cwd, a.from);
      AcceptedIsWithin(cwd, a.to);
      assert Targets(Rename(from.path, to.path)) == [from.path, to.path];
    }
  }

  lemma RemoveFileStaysInside(cwd: string, w: World, p: PathArguments)
    requires cwd != ""
    ensures Confined(cwd, RemoveFile(cwd, w, p))
  {
    AcceptedIsWithin(cwd, p.path);
  }

  lemma SqlExecuteStaysInside(cwd: string, w: World, q: SqlArguments)
    requires cwd != ""
    ensures Confined(cwd, SqlExecute(cwd, w, q))
  {
    AcceptedIsWithin(cwd, q.database);
  }

  lemma SqlQueryRowsStaysInside(cwd: string, w: World, q: SqlArguments)
    requires cwd != ""
    ensures Confined(cwd, SqlQueryRows(cwd, w, q))
  {
    AcceptedIsWithin(cwd, q.database);
  }

  lemma PythonStaysInside(cwd: string, w: World, a: PythonArguments)
    requires cwd != ""
    ensures Confined(cwd, Python(cwd, w, a))
  {
    var r := Python(cwd, w, a);
    if Resolve(cwd, a.scriptName).err.None? {
      assert !Rejected(a.scriptName);
      var p := ScriptPath(cwd, a.scriptName);
      assert Within(cwd, p);
      var run := RunScript(p, w, a.code);
      assert r == run;
    }
  }

  // ---------------------------------------------------------------- registration

  /**
   guardError (dispatch_tools.go:447-456): the wrapped handler never reports
   an error; a failure comes back as a successful value holding the
   flattened error text, and a success passes through unchanged.
   */
  function GuardError<T(!new)>(fn: T -> Outcome): (g: T -> Outcome)
    ensures forall x: T :: g(x).err.None?
    ensures forall x: T :: fn(x).err.None? ==> g(x) == fn(x)
    ensures forall x: T :: fn(x).err.Some? ==> g(x).value == Str(Flatten(fn(x).err.value))
  {
    (x: T) =>
      var o := fn(x);
      if o.err.Some? then Ok(Str(Flatten(o.err.value))) else Ok(o.value)
  }

  /** The handlers as the closures registration binds, over the dispatcher's working directory. */
  function ListTool(cwd: string, w: World): PathArguments -> Outcome {
    (a: PathArguments) => ListFiles(cwd, w, a).out
  }
  function TreeTool(cwd: string, w: World, codec: Codec): PathArguments -> Outcome {
    (a: PathArguments) => TreeFiles(cwd, w, codec, a).out
  }
  function ReadTool(cwd: string, w: World): PathArguments -> Outcome {
    (a: PathArguments) => ReadFile(cwd, w, a).out
  }
  function WriteTool(cwd: string, w: World): WriteFileArguments -> Outcome {
    (a: WriteFileArguments) => WriteFile(cwd, w, a).out
  }
  function MoveTool(cwd: string, w: World): MoveFileArguments -> Outcome {
    (a: MoveFileArguments) => MoveFile(cwd, w, a).out
  }
  function RemoveTool(cwd: string, w: World): PathArguments -> Outcome {
    (a: PathArguments) => RemoveFile(cwd, w, a).out
  }
  function SqlExecTool(cwd: string, w: World): SqlArguments -> Outcome {
    (a: SqlArguments) => SqlExecute(cwd, w, a).out
  }
  function SqlQueryTool(cwd: string, w: World): SqlArguments -> Outcome {
    (a: SqlArguments) => SqlQueryRows(cwd, w, a).out
  }
  function PythonTool(cwd: string, w: World): PythonArguments -> Outcome {
    (a: PythonArguments) => PythonAsWritten(cwd, w, a).out
  }

  /** How many tools registration adds. */
  const ToolCount := 9

  /** The name of the k-th tool, in registration order (dispatch_tools.go:27-79). */
  function ToolName(k: nat): string
    requires k < ToolCount
  {
    match k
    case 0 => "fs_list"
    case 1 => "fs_tree"
    case 2 => "fs_read"
    case 3 => "fs_write"
    case 4 => "fs_move"
    case 5 => "fs_remove"
    case 6 => "sql_exec"
    case 7 => "sql_query"
    case 8 => "python_execute"
  }

  /** The description the k-th tool is advertised with. */
  function Description(k: nat): string
    requires k < ToolCount
  {
    match k
    case 0 => "Filesystem: List files in the given path"
    case 1 => "Filesystem: List files in the given path recursively. Useful for starting point."
    case 2 => "Filesystem: Read file by the given path. Avoid using this for large files. Avoid using it for non-text files like images."
    case 3 => "Filesystem: Write file by the given path."
    case 4 => "Filesystem: Move file"
    case 5 => "Filesystem: Remove file"
    case 6 => "SQLite: execute statement and return result (rows affected, last insert id)"
    case 7 => "SQLite: execute query and return result (rows)"
    case 8 => "Execute python code. This is especially useful for math."
  }

  /** The Go argument type whose reflected schema the k-th tool advertises. */
  function ArgumentType(k: nat): string
    requires k < ToolCount
  {
    match k
    case 0 => "ListFilesArguments"
    case 1 => "TreeFilesArguments"
    case 2 => "ReadFileArguments"
    case 3 => "WriteFileArguments"
    case 4 => "MoveFileArguments"
    case 5 => "RemoveFileArguments"
    case 6 => "SQLExecArguments"
    case 7 => "SQLQueryArguments"
    case 8 => "PythonArguments"
  }

  /** The names registration binds. */
  function ToolNameSet(): set<string> {
    set k: nat | k < ToolCount :: ToolName(k)
  }

  /** Calling the k-th catalogue tool: its arguments decoded, then its guarded handler run. */
  function Invoke(cwd: string, w: World, codec: Codec, k: nat, u: ToolUse): Outcome
    requires k < ToolCount
  {
    match k
    case 0 => CallTool(codec.decodePath, GuardError(ListTool(cwd, w)))(u)
    case 1 => CallTool(codec.decodePath, GuardError(TreeTool(cwd, w, codec)))(u)
    case 2 => CallTool(codec.decodePath, GuardError(ReadTool(cwd, w)))(u)
    case 3 => CallTool(codec.decodeWrite, GuardError(WriteTool(cwd, w)))(u)
    case 4 => CallTool(codec.decodeMove, GuardError(MoveTool(cwd, w)))(u)
    case 5 => CallTool(codec.decodePath, GuardError(RemoveTool(cwd, w)))(u)
    case 6 => CallTool(codec.decodeSql, GuardError(SqlExecTool(cwd, w)))(u)
    case 7 => CallTool(codec.decodeSql, GuardError(SqlQueryTool(cwd, w)))(u)
    case 8 => CallTool(codec.decodePython, GuardError(PythonTool(cwd, w)))(u)
  }

  /** The function registration binds under the k-th catalogue name. */
  function Handler(cwd: string, w: World, codec: Codec, k: nat): ToolCallFunc
    requires k < ToolCount
  {
    (u: ToolUse) => Invoke(cwd, w, codec, k, u)
  }

  /** The input does not decode into the argument type of the k-th catalogue tool. */
  predicate DecodeFails(codec: Codec, k: nat, input: string)
    requires k < ToolCount
  {
    match k
    case 3 => codec.decodeWrite(input).Failure?
    case 4 => codec.decodeMove(input).Failure?
    case 6 | 7 => codec.decodeSql(input).Failure?
    case 8 => codec.decodePython(input).Failure?
    case _ => codec.decodePath(input).Failure?
  }

  /** A registered tool reports an error only when its input does not decode. */
  lemma HandlerFailsOnlyToDecode(cwd: string, w: World, codec: Codec, k: nat, u: ToolUse)
    requires k < ToolCount
    ensures Handler(cwd, w, codec, k)(u).err.Some? <==> DecodeFails(codec, k, u.input)
  {
  }

  /** No two catalogue tools share a name. */
  lemma ToolNamesDistinct(j: nat, k: nat)
    requires j < k < ToolCount
    ensures ToolName(j) != ToolName(k)
  {
  }

  /** The handlers registration binds, in catalogue order. */
  function Handlers(cwd: string, w: World, codec: Codec): (hs: seq<ToolCallFunc>)
    ensures |hs| == ToolCount && forall k: nat :: k < ToolCount ==> hs[k] == Handler(cwd, w, codec, k)
  {
    seq(ToolCount, k requires 0 <= k < ToolCount => Handler(cwd, w, codec, k))
  }

  /** The registrations RegisterTools performs, in order, for the given handlers. */
  function Catalogue(codec: Codec, handlers: seq<ToolCallFunc>): (c: seq<Registration>)
    requires |handlers| == ToolCount
    ensures |c| == ToolCount
    ensures forall k: nat :: k < |c| ==>
      && c[k].definition == ToolDefinition(ToolName(k), Description(k), codec.reflect(ArgumentType(k)))
      && c[k].func == handlers[k]
  {
    seq(ToolCount, k requires 0 <= k < ToolCount =>
      Registration(ToolDefinition(ToolName(k), Description(k), codec.reflect(ArgumentType(k))), handlers[k]))
  }

  /** Later catalogue entries never reuse an earlier entry's name. */
  lemma CatalogueNamesUnique(c: seq<Registration>, k: nat)
    requires |c| == ToolCount && k < |c|
    requires forall j: nat :: j < |c| ==> c[j].definition.name == ToolName(j)
    ensures forall j :: k < j < |c| ==> c[j].definition.name != c[k].definition.name
  {
    forall j | k < j < |c| ensures c[j].definition.name != c[k].definition.name {
      ToolNamesDistinct(k, j);
    }
  }

  /** Registering the catalogue advertises its nine definitions, in order, after the existing ones. */
  lemma CatalogueAdvertised(d: Dispatcher, codec: Codec, handlers: seq<ToolCallFunc>)
    requires |handlers| == ToolCount
    ensures var r := RegisterAll(d, Catalogue(codec, handlers));
      && |r.tools| == |d.tools| + ToolCount && r.tools[..|d.tools|] == d.tools
      && forall k: nat :: k < ToolCount ==>
           r.tools[|d.tools| + k] == ToolDefinition(ToolName(k), Description(k), codec.reflect(ArgumentType(k)))
  {
    var c := Catalogue(codec, handlers);
    RegisterAllAdvertises(d, c);
  }

  /** The names the catalogue registers are exactly the nine tool names. */
  lemma CatalogueNames(codec: Codec, handlers: seq<ToolCallFunc>)
    requires |handlers| == ToolCount
    ensures Names(Catalogue(codec, handlers)) == ToolNameSet()
  {
    var c := Catalogue(codec, handlers);
    forall n | n in ToolNameSet() ensures n in Names(c) {
      var k: nat :| k < ToolCount && ToolName(k) == n;
      assert c[k].definition.name == n;
    }
  }

  /** Registering the catalogue binds the nine names on top of the existing ones. */
  lemma CatalogueKeys(d: Dispatcher, codec: Codec, handlers: seq<ToolCallFunc>)
    requires |handlers| == ToolCount
    ensures RegisterAll(d, Catalogue(codec, handlers)).funcs.Keys == d.funcs.Keys + ToolNameSet()
  {
    RegisterAllBinds(d, Catalogue(codec, handlers));
    CatalogueNames(codec, handlers);
  }

  /** Registering the catalogue binds the k-th name to the k-th handler. */
  lemma CatalogueHandler(d: Dispatcher, codec: Codec, handlers: seq<ToolCallFunc>, k: nat)
    requires |handlers| == ToolCount && k < ToolCount
    ensures var r := RegisterAll(d, Catalogue(codec, handlers));
      ToolName(k) in r.funcs && r.funcs[ToolName(k)] == handlers[k]
  {
    var c := Catalogue(codec, handlers);
    CatalogueNamesUnique(c, k);
    RegisterAllLastWins(d, c, k);
  }

  /** Registering the catalogue leaves every other name bound as it was. */
  lemma CatalogueKeepsOthers(d: Dispatcher, codec: Codec, handlers: seq<ToolCallFunc>, n: string)
    requires |handlers| == ToolCount && n in d.funcs && n !in ToolNameSet()
    ensures var r := RegisterAll(d, Catalogue(codec, handlers));
      n in r.funcs && r.funcs[n] == d.funcs[n]
  {
    CatalogueNames(codec, handlers);
    RegisterAllKeepsOthers(d, Catalogue(codec, handlers), n);
  }

  /** RegisterTools (dispatch_tools.go:26-98): register the nine catalogue tools, in order. */
  function RegisterTools(d: Dispatcher, w: World, codec: Codec): (r: Dispatcher)
    ensures r.cwd == d.cwd && r.model == d.model && r.thread == d.thread
  {
    RegisterAll(d, Catalogue(codec, Handlers(d.cwd, w, codec)))
  }

  /** The nine tools are advertised, in their fixed order, after whatever was there. */
  lemma RegisterToolsAdvertises(d: Dispatcher, w: World, codec: Codec)
    ensures var r := RegisterTools(d, w, codec);
      && r.cwd == d.cwd && r.model == d.model && r.thread == d.thread
      && |r.tools| == |d.tools| + ToolCount && r.tools[..|d.tools|] == d.tools
      && forall k: nat :: k < ToolCount ==>
           r.tools[|d.tools| + k] == ToolDefinition(ToolName(k), Description(k), codec.reflect(ArgumentType(k)))
  {
    CatalogueAdvertised(d, codec, Handlers(d.cwd, w, codec));
  }

  /** Each of the nine names is bound to its guarded handler; every other binding is kept. */
  lemma RegisterToolsBinds(d: Dispatcher, w: World, codec: Codec)
    ensures var r := RegisterTools(d, w, codec);
      && r.funcs.Keys == d.funcs.Keys + ToolNameSet()
      && (forall k: nat :: k < ToolCount ==> ToolName(k) in r.funcs && r.funcs[ToolName(k)] == Handler(d.cwd, w, codec, k))
      && (forall n :: n in d.funcs && n !in ToolNameSet() ==> r.funcs[n] == d.funcs[n])
  {
    var hs := Handlers(d.cwd, w, codec);
    CatalogueKeys(d, codec, hs);
    forall k: nat | k < ToolCount
      ensures ToolName(k) in RegisterTools(d, w, codec).funcs && RegisterTools(d, w, codec).funcs[ToolName(k)] == Handler(d.cwd, w, codec, k)
    {
      CatalogueHandler(d, codec, hs, k);
    }
    forall n | n in d.funcs && n !in ToolNameSet() ensures RegisterTools(d, w, codec).funcs[n] == d.funcs[n] {
      CatalogueKeepsOthers(d, codec, hs, n);
    }
  }

  /** NewDispatcher (dispatch.go:38-64): an empty dispatcher with the nine tools registered. */
  function NewDispatcher(cwd: string, model: string, w: World, codec: Codec): (r: Dispatcher)
    ensures r.thread == [] && r.cwd == cwd && r.model == model
  {
    RegisterTools(Empty(cwd, model), w, codec)
  }

  /** A fresh dispatcher has an empty thread, advertises exactly the nine tools and binds exactly their names. */
  lemma FreshDispatcher(cwd: string, model: string, w: World, codec: Codec)
    ensures var d := NewDispatcher(cwd, model, w, codec);
      && d.thread == [] && d.cwd == cwd && d.model == model
      && |d.tools| == ToolCount && (forall k: nat :: k < ToolCount ==> d.tools[k].name == ToolName(k))
      && d.funcs.Keys == ToolNameSet()
      && (forall k: nat :: k < ToolCount ==> ToolName(k) in d.funcs && d.funcs[ToolName(k)] == Handler(cwd, w, codec, k))
  {
    var e := Empty(cwd, model);
    var d := RegisterTools(e, w, codec);
    RegisterToolsAdvertises(e, w, codec);
    RegisterToolsBinds(e, w, codec);
    assert e.funcs.Keys + ToolNameSet() == ToolNameSet();
    forall k: nat | k < ToolCount ensures d.tools[k].name == ToolName(k) {
      assert d.tools[|e.tools| + k].name == ToolName(k);
    }
  }

  /**
   Because every handler is guarded, a call in a fresh dispatcher fails
   exactly when the tool is unknown or its input does not decode; handler
   failures always come back as successful values.
   */
  lemma OnlyUnknownOrUndecodableFail(cwd: string, model: string, w: World, codec: Codec, call: ToolUse)
    ensures var d := NewDispatcher(cwd, model, w, codec);
            && (call.name !in ToolNameSet() ==> CallFunction(d, call) == Outcome(Nil, Some(NotFound)))
            && (forall k: nat :: k < ToolCount && call.name == ToolName(k) ==>
                  (CallFunction(d, call).err.Some? <==> DecodeFails(codec, k, call.input)))
  {
    FreshDispatcher(cwd, model, w, codec);
    forall k: nat | k < ToolCount && call.name == ToolName(k)
      ensures CallFunction(NewDispatcher(cwd, model, w, codec), call).err.Some? <==> DecodeFails(codec, k, call.input)
    {
      HandlerFailsOnlyToDecode(cwd, w, codec, k, call);
    }
  }

  /**
   The handler bound under python_execute runs PythonAsWritten on the decoded
   arguments, guarded: its outcome, or the flattened error as a value.
   */
  lemma PythonHandlerIsAsWritten(cwd: string, w: World, codec: Codec, u: ToolUse)
    requires codec.decodePython(u.input).Success?
    ensures var o := PythonAsWritten(cwd, w, codec.decodePython(u.input).value).out;
            && ToolName(8) == "python_execute"
            && (o.err.None? ==> Handler(cwd, w, codec, 8)(u) == o)
            && (o.err.Some? ==> Handler(cwd, w, codec, 8)(u) == Ok(Str(Flatten(o.err.value))))
  {
    var fn := PythonTool(cwd, w);
    GuardedCall(codec.decodePython, fn, u);
    PythonHandlerIsCallTool(cwd, w, codec, u);
  }

  /** The handler bound under python_execute decodes PythonArguments and runs the guarded PythonTool. */
  lemma PythonHandlerIsCallTool(cwd: string, w: World, codec: Codec, u: ToolUse)
    ensures Handler(cwd, w, codec, 8)(u) == CallTool(codec.decodePython, GuardError(PythonTool(cwd, w)))(u)
  {
    assert Handler(cwd, w, codec, 8)(u) == Invoke(cwd, w, codec, 8, u);
  }

  /** A guarded handler behind a successful decode: the handler's outcome, or its flattened error as a value. */
  lemma GuardedCall<T(!new)>(decode: string -> Result<T, Error>, fn: T -> Outcome, u: ToolUse)
    requires decode(u.input).Success?
    ensures var o := fn(decode(u.input).value);
            && (o.err.None? ==> CallTool(decode, GuardError(fn))(u) == o)
            && (o.err.Some? ==> CallTool(decode, GuardError(fn))(u) == Ok(Str(Flatten(o.err.value))))
  {
  }
}

=== FILE: values.dfy ===
/**
 Go's `any` as it flows out of tool handlers, and the (value, error) pair
 every handler and wrapper returns.
 */
module Values {
  import opened Wrappers
  import opened Karma

  /** The JSON-serialisable values the handlers produce. */
  datatype Value =
    | Nil
    | Bool(b: bool)
    | Int(i: int)
    | Str(s: string)
    | List(items: seq<Value>)
    | Object(fields: map<string, Value>)

  /** A Go `(any, error)` return: `err == None` is a nil error. */
  datatype Outcome = Outcome(value: Value, err: Option<Error>)

  /** `return v, nil` */
  function Ok(v: Value): Outcome {
    Outcome(v, None)
  }

  /** `return nil, e` */
  function Err(e: Error): Outcome {
    Outcome(Nil, Some(e))
  }
}

=== FILE: wrappers.dfy ===
/** Failure-compatible wrappers used throughout the model. */
module Wrappers {

  /** An optional value: Go's "nil or something". */
  datatype Option<+T> = None | Some(value: T)

  /** A value or an error: the decoded or computed result of a fallible step. */
  datatype Result<+R, +E> = Success(value: R) | Failure(error: E)
}
